=== FILE: README.md ===
# percook export reconciliation, modelled in Dafny

percook wraps a Go `http.CookieJar` so that its whole live content can be
exported. A jar only answers "which cookies apply to this URL". It never says
which cookies exist or under which scope. So the wrapper does two things:

- On every write it records a **scope key** per cookie: `scheme://domain` plus
  a path, the narrowest URL the cookie was set for.
- On export it re-queries the jar for every recorded scope, twice. The first
  query uses the scope as recorded. The second prefixes the host with
  `sloppy.`, which only Domain cookies also match.

The export then groups the observed cookies by the concatenation of name and
value, and then by registrable domain (eTLD+1). Each group yields one
representative: the first observation whose scope URL is shortest. Secure, Path
and Domain are rebuilt from where the representative was observed.

The project has these modules:

- `Utils` (`utils.dfy`): the two string helpers.
- `Http` (`http.dfy`): the parts of Go's `net/url` that the code relies on.
  A URL is a `(scheme, host, path)` record. Its text is
  `scheme + "://" + host + path`. Key re-parsing is `ParseUrl`. The directory
  of a request path is `DirectoryOf`.
- `ScopeKey` (`scopekey.dfy`): `toKey`.
- `Reconciliation` and `ReconciliationFacts` (`reconcile.dfy`,
  `reconcile_facts.dfy`): the body of `AllCookies` over an ordered list of
  scope URLs.
- `Percook` (`percook.dfy`): the wrapper state, `storeKey`, `SetCookies`,
  `keys` and `AllCookies`.
- `Seqs` and `Wrappers` (`seqs.dfy`, `wrappers.dfy`): generic sequence helpers
  and `Option`.

The environment is passed in as function parameters:

- The underlying jar is an opaque state `J`. `write(j, u, cookies)` is the jar
  after a write.
- `read(j)(u)` (inside `Reconciliation`: `jar(u)`) is what the jar returns for
  a request to `u`.
- The public-suffix lookup is `etld: string -> Option<string>`. `None` means
  the lookup failed.

Go's `sync.Map` becomes a `set<Key>`. The unspecified order of Go's map
iteration is handled like this:

- `AllCookies` takes an `order` that lists every recorded key exactly once.
- Groups are emitted by name-and-value string, in order of first observation.
  Within one string, they are emitted by registrable domain, again in order of
  first observation. So a group first seen later can precede one first seen
  earlier.
- Facts that do not depend on the order are proved separately
  (`ReconciliationFacts.OrderIndependentGroups`).

The export is a `seq<(URL, Cookie)>` with one pair per exported cookie.

Behaviour of the code worth noting:

- The first grouping key is `Name + Value` as one string, not a pair. So
  `("ab", "c")` and `("a", "bc")` fall into the same group.
- On a length tie the representative is the earliest observation, because the
  comparison is strict. It is not chosen lexicographically. "Earliest" follows
  the enumeration of the recorded keys. For Go that is the order of
  `sync.Map.Range`, which Go leaves unspecified. So when two scopes have URL
  texts of equal byte length, two exports of the same jar can pick different
  representatives, with a different URL and Domain. Only the set of groups and
  the number of exported cookies are order-independent
  (`ReconciliationFacts.OrderIndependentGroups`).
- Lengths are Go's `len` of a string: UTF-8 bytes, not characters
  (`Utils.Utf8Len`).
- The literal query and the `sloppy.` query of one scope share one URL string,
  the one of the scope itself. Only the observed host differs.
- When a group was seen from only one host, Domain is left as the jar returned
  it. It is not explicitly cleared.
- The key's domain comes from the request host whenever the host is non-empty.
  This is the argument-order slip listed under Findings. The wrapper records
  keys derived this way (`ScopeKey.ToKeyAsWritten`). The evidently intended
  derivation, Domain attribute first, is `ScopeKey.ToKey`, and its properties
  are proved on their own.
- A key is plain text: the cookie's Path, or the request's decoded path, is
  pasted in unescaped. Go's URL parser refuses a `%` that does not open a
  two-hex-digit escape, and refuses control characters. So one such write makes
  every later export abort. This is the second row under Findings.

## Model

| member | source | states |
|---|---|---|
| `Utils.StringCoalesceWithDefault` | utils.go:3-11 | The result is the first non-empty choice when there is one, and `defaultValue` when every choice is empty or there are none. It is always the default or one of the choices. |
| `Utils.Utf8Len` | utils.go:20 | Go's `len` of a string counts UTF-8 bytes: between one and four per character, and one per character exactly when every character is ASCII. |
| `Utils.StringMin` | utils.go:13-25 | No choices give `""`. Otherwise the result is one of the choices, no choice is shorter in UTF-8 bytes, and every earlier choice is strictly longer in bytes (ties go to the first). |
| `Seqs.FirstMinimal` | percook.go:149-158 | The selected index has the least measure in the sequence, and every earlier element is strictly larger. This is the element the strict-`>` scan keeps. |
| `Seqs.Filter` | percook.go:141-145 | Bucketing by repeated `append` keeps exactly the matching elements, as an order-preserving subsequence. |
| `Seqs.FilterCounts` | percook.go:141-145 | A bucket holds every matching element as often as the input does, and no other element. |
| `Seqs.FilterFirstMinimal` | percook.go:149-158 | The first shortest element of a bucket is, in the whole input, the earliest matching element of least measure: no matching element is smaller, and every earlier matching one is strictly larger. |
| `Seqs.SubsequenceTransitive` | percook.go:140-145 | A bucket of a bucket is still a subsequence of the observations, so the two grouping stages keep observation order. |
| `Http.ParseUrl` | percook.go:68 | A key parses exactly when it has the `scheme://` shape, holds no control character, and every `%` in it opens a two-hex-digit escape. A parsed URL prints back to the same text, with a host free of `/` and a path that is empty or rooted. |
| `Http.MalformedEscapeRefused` | percook.go:68-72 | Text holding a `%` that is not followed by two hex digits does not parse. |
| `Http.UrlStringInjective` | percook.go:107 | Two URLs whose parts do not contain the separators print to the same text only if they are equal. |
| `Http.ParseUrlString` | percook.go:68 | Parsing a printed URL gives the URL back, provided its scheme has no `:`, its host no `/`, its path is empty or rooted, and no part holds a control character or a malformed escape. |
| `Http.Escape` | percook.go:68 | Escaping `%` and control characters always gives text the parser accepts. It leaves text that needs no escaping unchanged. |
| `Http.DirectoryOf` | percook.go:40-44 | Resolving `.` against a request path gives the path up to and including its last `/`, or `/` when it has none. The result always begins and ends with `/`. |
| `ScopeKey.ChosenDomain` | percook.go:29 | The key domain is the Domain attribute when set, else the request host (the evidently intended order). |
| `ScopeKey.KeyPath` | percook.go:33-49 | An explicit Path is kept verbatim. Otherwise the path is the directory of the request path without its trailing `/`, so a root request gives `""`. |
| `ScopeKey.ToKey` | percook.go:24-51 | The key starts with `https://` exactly when the cookie is Secure, and with `http://` exactly when it is not. A non-empty Path is the key's suffix. |
| `ScopeKey.ToKeyParses` | percook.go:24-51 | A derived key re-parses as a URL whenever its domain and path hold no control character and no malformed escape. |
| `ScopeKey.ToKeyRoundTrip` | percook.go:24-51 | When the Path attribute is empty or starts with `/`, the chosen domain holds no `/`, the request path is empty or starts with `/`, and the domain and key path hold no control character or malformed escape, a key re-parses into a URL with the scheme the Secure flag selects. Its host is the Domain attribute (else the request host) with exactly one leading dot removed. Its path is the explicit Path, or the request's directory without the trailing slash. |
| `ScopeKey.DefaultPathIsDirectory` | percook.go:33-49 | Without a Path attribute, a request path `p + "/" + leaf` with no `/` in `leaf` is keyed by `p`. |
| `ScopeKey.DefaultPathExamples` | percook_test.go:102-161 | For any host without a leading dot, a host-only Secure cookie written to `https://host/test/1234` is keyed `https://host/test`. A non-Secure one written to `https://host/` is keyed `http://host`, with an empty path. |
| `ScopeKey.DomainAsWritten` | percook.go:29 | The domain the code picks is the request host when that is non-empty, and the Domain attribute otherwise. |
| `ScopeKey.ToKeyAsWrittenParses` | percook.go:24-51 | A key derived as written re-parses as a URL whenever its domain and path hold no control character and no malformed escape. |
| `ScopeKey.PercentPathKey` | percook.go:44-50 | A cookie without Path, written for the decoded request path `/a%b/c` on any host, is keyed `http://host/a%b`, which does not parse. |
| `ScopeKey.ToKeyEscaped` | percook.go:50 | A key with `%` and control characters escaped re-parses for every cookie and request. It equals the as-written key whenever that key's domain and path need no escaping. |
| `ScopeKey.UnrootedPathJoinsHost` | percook.go:33-50 | For any host without a leading dot or `/`, a cookie with `Path=foo` written for `https://host/` is keyed `http://hostfoo`, which re-parses with host `hostfoo` and an empty path. |
| `ScopeKey.RootedKeyPath` | percook.go:33-49 | The corrected key path is empty or starts with `/`. A Path attribute starting with `/` is kept. Any other Path is replaced by the request's default directory, as if no Path had been given. |
| `ScopeKey.RootedKeyRoundTrip` | percook.go:24-51 | With the corrected key path, a key whose chosen domain holds no `/` and whose domain and path text hold no control character or malformed escape re-parses to exactly the Secure flag's scheme, the domain with one leading dot dropped, and the corrected path, whatever the Path attribute holds. |
| `ScopeKey.ToKeyAsWritten` | percook.go:29-32 | As written, with a non-empty request host the key equals the corrected key of the same cookie with its Domain attribute erased. With an empty host the two agree. |
| `ScopeKey.AsWrittenIgnoresDomainAttribute` | percook.go:29 | A Domain=`example.com` cookie written from `sub.example.com` is keyed `http://sub.example.com` as written, and `http://example.com` when corrected. |
| `Reconciliation.Observe` | percook.go:101-133 | One scope yields the jar's cookies for the scope (path normalised to `/`) followed by those for its `sloppy.` subdomain. All of them carry the scope's own URL text. Each carries the scope's registrable domain, or the host itself when the lookup fails. |
| `Reconciliation.Observations` | percook.go:101-134 | An observation occurs exactly when some enumerated scope produced it. |
| `Reconciliation.Group` | percook.go:125-145 | A group holds exactly the observations with its name-and-value string and registrable domain, in observation order. |
| `Reconciliation.GroupIsFilter` | percook.go:125-145 | The two bucketing stages together equal one pass that keeps the observations with the group's key, each as often as it was observed. |
| `Reconciliation.EmitIsEarliestShortest` | percook.go:140-158 | The exported representative of a group is, over all observations, the earliest one with the group's key whose URL text has the fewest bytes. |
| `Reconciliation.HostsSpan` | percook.go:148-163 | More than one distinct host in the group's host set holds exactly when two observations of the group differ in host. |
| `Reconciliation.Emit` | percook.go:147-168 | The exported cookie is the group's first shortest observation. Its Secure is whether the observed scheme is `https`. Its Path is the observed path. Its Domain is the observed host if the group spans two hosts, else the jar's Domain. Name, value and other attributes are unchanged. |
| `Reconciliation.GroupNonEmpty` | percook.go:141-149 | A group is non-empty exactly when some observation carries its key, so taking its first element is safe. |
| `Reconciliation.SitesOf` | percook.go:141-147 | The registrable domains of one name-and-value bucket have no repeats. They are exactly the domains under which that string was observed. |
| `Reconciliation.GroupOrder` | percook.go:140-147 | Over distinct name-and-value strings, the nested loops visit no group twice. They visit exactly the occurring groups whose string is listed. |
| `Reconciliation.EmitAll` | percook.go:147-169 | One entry per visited group, in visiting order. Each entry carries its group's key and is that group's representative. |
| `Reconciliation.Reconcile` | percook.go:136-172 | Entry keys never repeat, and they are exactly the groups that occur among the observations. Every entry's group is non-empty, and the entry is its representative. |
| `Reconciliation.EntriesCount` | percook.go:138-139 | Entries with distinct keys that cover exactly the occurring groups are as many as the groups. |
| `Reconciliation.AllCookies` | percook.go:87-173 | No scopes give an empty export. There are as many exported cookies as groups. Each is Secure iff its URL is `https`, with Path equal to its URL's (never empty), at a recorded scope's host or its `sloppy.` subdomain. |
| `Reconciliation.EntryFacts` | percook.go:147-168 | There are as many reconciled entries as groups. Each is Secure iff its URL is `https`, has its URL's non-empty path, and sits at the scheme and host (or `sloppy.` host) of some recorded scope. |
| `ReconciliationFacts.ExactlyOnePerGroup` | percook.go:138-169 | Each observed cookie's group is exported under exactly one index. |
| `ReconciliationFacts.SitesStaySeparate` | percook_test.go:163-205 | Equal name and value under two registrable domains give two distinct exported cookies. |
| `ReconciliationFacts.OrderIndependentGroups` | percook.go:61-76 | Two enumerations of the same scopes export the same set of groups and the same number of cookies. |
| `Percook.New` | percook.go:19-22 | A fresh wrapper holds the given jar and no recorded key. |
| `Percook.StoreKey` | percook.go:53-56 | Recording adds the key as the code derives it (request host before Domain attribute), keeps every old key and adds nothing else. Re-recording a present key changes nothing. |
| `Percook.RecordAll` | percook.go:176-178 | Recording a batch adds exactly the keys of its cookies, derived as the code derives them. |
| `Percook.SetCookies` | percook.go:175-180 | The jar receives the batch unchanged, and the recorded set grows by exactly the batch's keys as the code derives them. |
| `Percook.RecordsRequestHost` | percook.go:175-180 | With a non-empty request host, writing one cookie records the key it would have without its Domain attribute. |
| `Wrappers.MapAll` | percook.go:61-76 | Applying a fallible step to every element succeeds exactly when every step succeeds. It then yields one result per element, in order. |
| `Percook.Keys` | percook.go:58-83 | Re-parsing succeeds exactly when every key parses. It then yields one URL per key, in order. |
| `Percook.KeysSucceedIffParsable` | percook.go:61-82 | For an enumeration of the recorded set, re-parsing succeeds exactly when every recorded key is a URL. |
| `Percook.AllCookies` | percook.go:87-91 | The export aborts exactly when a recorded key is not a URL. A wrapper with no keys exports nothing. Otherwise the result is the reconciliation of the parsed keys. |
| `Percook.Replay` | percook.go:175-180 | After a sequence of writes, the recorded set is the old set plus exactly the keys of the written cookies. Writes whose key text the parser accepts keep every recorded key parsable. |
| `Percook.ExportNeverAborts` | percook.go:88-91 | A wrapper built only from writes whose key text holds no control character and no malformed escape never reaches the abort in the export. |
| `Percook.PercentPathPoisonsExport` | percook.go:88-91 | After one cookie without Path is written for `https://host/a%25b/c`, the key `http://host/a%b` is recorded and does not parse. Every later export aborts, whatever is written afterwards. |
| `Percook.AbortIsPermanent` | percook.go:87-91 | Once a recorded key does not parse, every export after any further writes aborts, in every enumeration order. |

## Left out

- Concurrency. `sync.Map` and concurrent writers are a plain set updated by pure functions.
- The real `net/http/cookiejar` and the public-suffix list. They are the parameters `write`, `read`/`jar` and `etld`.
- The export-then-restore round trip (percook_test.go:385-399). It depends on the real jar's matching and expiry.
- The "updated value" test, for the same reason.
- `Http.ParseUrl`: it refuses only control characters and malformed `%` escapes. Go's further checks are not modelled: characters not allowed in a host name, an escape of an ASCII byte other than `%25` in a host, port syntax, and scheme characters. Nor is Go's lower-casing of the scheme or its decoding of valid escapes into the path. A `?` is not treated as the start of a query, whose escapes Go does not check. A key whose domain Go refuses for these reasons still parses in the model.
- `Percook.ExportNeverAborts`: it is stated for key text free of control characters and malformed escapes. Go's host-name checks are not modelled, so a Domain attribute that Go refuses as a host (on a host-less request) is not excluded.
- Go URL syntax beyond `scheme://host/path`: escaping, ports, user info, query, fragment, and `.`/`..` segments in request paths.
- `Reconciliation.UrlLength`: it counts the UTF-8 bytes of the modelled URL text, as Go's `len` does. Because escaping is not modelled, this can differ from the byte length of Go's escaped `URL.String()` when the host or path holds characters Go escapes.
- The `keys` branch for a stored value that is not a string. It is a Go type-assertion artefact.
- The wording of the error and panic messages.
- `CookieJar.Cookies` (percook.go:181-183). It is a plain pass-through to the jar.
- In-place mutation of the cookies the jar returns. The model builds new records.
- The Go map is keyed by `*url.URL` pointer, so cookies represented at the same URL object share one slice. The model lists one `(URL, Cookie)` pair per exported cookie.
- Cookie attributes other than name, value, path, domain and Secure. They are carried by one pass-through field (`httpOnly`).
- `Percook.AllCookies`: where the Go code panics on a key that does not parse, the model returns `None`.
- `ScopeKey.ToKeyRoundTrip`: it is stated only for a Path attribute that is empty or starts with `/`, a chosen domain without `/`, and a request path that is empty or starts with `/`. A Path such as `foo` is glued onto the host (see Findings); the corrected key of `ScopeKey.RootedKeyRoundTrip` covers every Path.
- `ScopeKey.ToKey`: the Go code panics when both the Domain attribute and the request host are empty. The model requires one of them to be set. The same holds for `ScopeKey.ToKeyAsWritten`, `Percook.StoreKey`, `Percook.RecordAll` and `Percook.SetCookies`.
- `Utils.StringMin` is not called by the exporting code. It is modelled alone.

## Findings

| source | as written | input that shows it | evidently intended | confidence | as-written member | corrected member |
|---|---|---|---|---|---|---|
| percook.go:29 | The coalescing helper's first argument is the default. The call passes the Domain attribute first, so the request host is used whenever it is non-empty and the Domain attribute is ignored. | Request `https://sub.example.com/` with cookie `abcd=1234; Domain=example.com` and no Path gives key `http://sub.example.com`. The export then narrows the cookie to `sub.example.com`. | Key `http://example.com`: the Domain attribute first, the request host as fallback. | medium; not executed | `ScopeKey.ToKeyAsWritten`, `ScopeKey.AsWrittenIgnoresDomainAttribute` | `ScopeKey.ToKey`, `ScopeKey.ToKeyRoundTrip` |
| percook.go:50 | The key pastes the Path attribute, or the request's decoded path, into the key text unescaped, while `keys` re-parses that text (percook.go:68) and `AllCookies` panics on failure (percook.go:89-91). Keys are never removed. | One cookie `x=1` without Path written for `https://host/a%25b/c`: the decoded path `/a%b/c` gives key `http://host/a%b`, which Go's parser refuses as an invalid escape. Every later `AllCookies` panics. The same holds for `Set-Cookie: x=1; Path=/100%`. | Export never aborts: the key text is escaped, by percent-escaping what the parser refuses, so that it always re-parses. | medium; not executed | `Percook.PercentPathPoisonsExport`, `ScopeKey.PercentPathKey` | `ScopeKey.ToKeyEscaped` |
| percook.go:33-50 | A non-empty Path attribute is pasted after the domain whether or not it starts with `/`. | `Set-Cookie: x=1; Path=foo` from `https://h/` gives key `http://hfoo`, which re-parses as host `hfoo` with an empty path, so the cookie is exported for the wrong site. | The default path of section 5.2.4 of RFC 6265: a Path that does not start with `/` is ignored and the request's directory is used. | medium; not executed | `ScopeKey.UnrootedPathJoinsHost` | `ScopeKey.RootedKeyPath`, `ScopeKey.RootedKeyRoundTrip` |

=== FILE: http.dfy ===
/** The parts of Go's net/url and net/http that the cookie-export logic relies on:
    a URL reduced to scheme, host and path; a cookie record; rendering and
    re-parsing a URL; and the "directory" of a request path. */
module Http {
  import opened Wrappers
  import opened Seqs

  datatype URL = URL(scheme: string, host: string, path: string)

  /** A cookie as the jar stores or returns it. `httpOnly` stands for the
      attributes that are carried through untouched. */
  datatype Cookie = Cookie(name: string, value: string, path: string, domain: string,
                           secure: bool, httpOnly: bool)

  /** The textual form of a URL. */
  function UrlString(u: URL): string {
    u.scheme + "://" + u.host + u.path
  }

  /** `s` is written `scheme://authority`, with a non-empty scheme free of `:`. */
  predicate HasAuthority(s: string) {
    var i := IndexOf(s, ':');
    i > 0 && |s| >= i + 3 && s[i + 1] == '/' && s[i + 2] == '/'
  }

  /** The parts of `u` cannot be confused with the separators: a non-empty scheme
      without `:`, a host without `/`, and a path that is empty or rooted. */
  predicate WellSeparated(u: URL) {
    u.scheme != "" && ':' !in u.scheme && '/' !in u.host && (u.path == "" || u.path[0] == '/')
  }

  /** An ASCII control character: Go's URL parser refuses one anywhere in its input. */
  predicate IsControl(c: char) {
    c as int < 0x20 || c as int == 0x7f
  }

  predicate IsHexDigit(c: char) {
    '0' <= c <= '9' || 'a' <= c <= 'f' || 'A' <= c <= 'F'
  }

  /** The character at `i` is acceptable: not a control character, and if it is `%`,
      followed by two hex digits. */
  predicate AcceptedAt(s: string, i: nat)
    requires i < |s|
  {
    !IsControl(s[i]) && (s[i] == '%' ==> i + 2 < |s| && IsHexDigit(s[i + 1]) && IsHexDigit(s[i + 2]))
  }

  /** Text whose characters Go's URL parser accepts: no control character, and
      every `%` opens an escape of two hex digits. */
  predicate ValidText(s: string) {
    forall i :: 0 <= i < |s| ==> AcceptedAt(s, i)
  }

  /** Splits `scheme://host/path`: the scheme ends at the first `:`, the host at the
      first `/` after `//`. Text without that shape is refused, and so is text whose
      characters Go's parser refuses: a control character, or a `%` that does not
      open a two-hex-digit escape. */
  function ParseUrl(s: string): (r: Option<URL>)
    ensures r.Some? <==> HasAuthority(s) && ValidText(s)
    ensures r.Some? ==> UrlString(r.value) == s && WellSeparated(r.value)
  {
    var i := IndexOf(s, ':');
    if i <= 0 || |s| < i + 3 || s[i + 1] != '/' || s[i + 2] != '/' || !ValidText(s) then None
    else
      var authority := s[i + 3..];
      var j := IndexOf(authority, '/');
      var host := if j < 0 then authority else authority[..j];
      var path := if j < 0 then "" else authority[j..];
      SplitAt(s, i, authority, host, path);
      Some(URL(s[..i], host, path))
  }

  /** Text with a `%` that does not open a two-hex-digit escape is refused. */
  lemma MalformedEscapeRefused(s: string, i: nat)
    requires i < |s| && s[i] == '%'
    requires i + 2 >= |s| || !IsHexDigit(s[i + 1]) || !IsHexDigit(s[i + 2])
    ensures ParseUrl(s).None?
  {
    assert !AcceptedAt(s, i);
  }

  lemma SplitAt(s: string, i: nat, authority: string, host: string, path: string)
    requires i + 3 <= |s| && s[i] == ':' && s[i + 1] == '/' && s[i + 2] == '/'
    requires authority == s[i + 3..] && authority == host + path
    ensures s == s[..i] + "://" + host + path
  {
    assert s == s[..i] + s[i..i + 3] + s[i + 3..];
    assert s[i..i + 3] == "://";
  }

  /** Where the separators of a rendered URL sit. */
  lemma UrlStringLayout(u: URL)
    ensures var s, n := UrlString(u), |u.scheme|;
            |s| >= n + 3 && s[..n] == u.scheme && s[n] == ':' && s[n + 1] == '/' && s[n + 2] == '/'
            && s[n + 3..] == u.host + u.path
  {
    var s, n := UrlString(u), |u.scheme|;
    assert s == u.scheme + ("://" + (u.host + u.path));
  }

  /** A rendered URL with a `:`-free scheme has the `scheme://` shape. */
  lemma RenderedHasAuthority(u: URL)
    requires u.scheme != "" && ':' !in u.scheme
    ensures HasAuthority(UrlString(u)) && IndexOf(UrlString(u), ':') == |u.scheme|
  {
    UrlStringLayout(u);
    IndexOfAt(UrlString(u), ':', |u.scheme|);
  }

  /** The first `/` of `host + path` is where the path starts, if the path is not empty. */
  lemma FirstSlash(h: string, p: string)
    requires '/' !in h && (p == "" || p[0] == '/')
    ensures IndexOf(h + p, '/') == if p == "" then -1 else |h|
  {
    if p == "" {
      assert h + p == h;
    } else {
      assert (h + p)[..|h|] == h;
      IndexOfAt(h + p, '/', |h|);
    }
  }

  /** A host without `/` followed by an empty or rooted path splits back uniquely. */
  lemma HostPathSplit(h1: string, p1: string, h2: string, p2: string)
    requires '/' !in h1 && '/' !in h2
    requires (p1 == "" || p1[0] == '/') && (p2 == "" || p2[0] == '/')
    requires h1 + p1 == h2 + p2
    ensures h1 == h2 && p1 == p2
  {
    var w := h1 + p1;
    FirstSlash(h1, p1);
    FirstSlash(h2, p2);
    assert |h1| == |h2|;
    assert h1 == w[..|h1|] && h2 == (h2 + p2)[..|h2|];
    assert p1 == w[|h1|..] && p2 == (h2 + p2)[|h2|..];
  }

  /** Rendering is injective on well-separated URLs. */
  lemma UrlStringInjective(a: URL, b: URL)
    requires WellSeparated(a) && WellSeparated(b) && UrlString(a) == UrlString(b)
    ensures a == b
  {
    RenderedHasAuthority(a);
    RenderedHasAuthority(b);
    UrlStringLayout(a);
    UrlStringLayout(b);
    HostPathSplit(a.host, a.path, b.host, b.path);
  }

  /** Re-parsing a rendered URL gives the URL back, as long as its parts cannot be
      confused with the separators and their characters are acceptable. */
  lemma ParseUrlString(u: URL)
    requires WellSeparated(u) && ValidText(u.scheme) && ValidText(u.host) && ValidText(u.path)
    ensures ParseUrl(UrlString(u)) == Some(u)
  {
    RenderedHasAuthority(u);
    RenderedValid(u);
    var r := ParseUrl(UrlString(u));
    UrlStringInjective(r.value, u);
  }

  lemma RenderedValid(u: URL)
    requires ValidText(u.scheme) && ValidText(u.host) && ValidText(u.path)
    ensures ValidText(UrlString(u))
  {
    assert ValidText("://") by {
      assert AcceptedAt("://", 0) && AcceptedAt("://", 1) && AcceptedAt("://", 2);
    }
    ValidTextConcat(u.scheme, "://");
    ValidTextConcat(u.scheme + "://", u.host);
    ValidTextConcat(u.scheme + "://" + u.host, u.path);
  }

  /** Acceptable text stays acceptable when joined. */
  lemma ValidTextConcat(a: string, b: string)
    requires ValidText(a) && ValidText(b)
    ensures ValidText(a + b)
  {
    var s := a + b;
    forall i | 0 <= i < |s| ensures AcceptedAt(s, i) {
      if i < |a| {
        assert AcceptedAt(a, i);
        assert s[i] == a[i];
        if a[i] == '%' {
          assert s[i + 1] == a[i + 1] && s[i + 2] == a[i + 2];
        }
      } else {
        var j := i - |a|;
        assert AcceptedAt(b, j);
        assert s[i] == b[j];
        if s[i] == '%' {
          assert s[i + 1] == b[j + 1] && s[i + 2] == b[j + 2];
        }
      }
    }
  }

  /** Acceptable text stays acceptable when a prefix is dropped. */
  lemma ValidTextSuffix(s: string, k: nat)
    requires ValidText(s) && k <= |s|
    ensures ValidText(s[k..])
  {
    var t := s[k..];
    forall i | 0 <= i < |t| ensures AcceptedAt(t, i) {
      assert AcceptedAt(s, k + i);
      assert t[i] == s[k + i];
      if s[k + i] == '%' {
        assert t[i + 1] == s[k + i + 1] && t[i + 2] == s[k + i + 2];
      }
    }
  }

  /** The hex digit Go writes for a value below 16. */
  function HexDigit(n: nat): (c: char)
    requires n < 16
    ensures IsHexDigit(c) && !IsControl(c)
  {
    "0123456789ABCDEF"[n]
  }

  /** Percent-escapes just what `ParseUrl` refuses: `%` itself and the control
      characters. Go's URL rendering escapes many more characters. */
  function Escape(s: string): (r: string)
    ensures ValidText(r)
    ensures ValidText(s) && '%' !in s ==> r == s
  {
    if |s| == 0 then ""
    else
      var c := s[0];
      var head := if c == '%' || IsControl(c) then ['%', HexDigit(c as int / 16), HexDigit(c as int % 16)] else [c];
      assert ValidText(head) by {
        if c == '%' || IsControl(c) {
          assert AcceptedAt(head, 0) && AcceptedAt(head, 1) && AcceptedAt(head, 2);
        }
      }
      var rest := Escape(s[1..]);
      ValidTextConcat(head, rest);
      if ValidText(s) && '%' !in s then
        ValidTextSuffix(s, 1);
        assert AcceptedAt(s, 0) && head == [c];
        assert forall k :: 0 <= k < |s[1..]| ==> s[1..][k] == s[k + 1];
        assert s == [c] + s[1..];
        head + rest
      else head + rest
  }

  /** `dir` is `path` up to and including its last `/`. */
  predicate IsDirectoryOf(path: string, dir: string) {
    '/' in path && |dir| <= |path| && dir == path[..|dir|] && '/' !in path[|dir|..]
    && |dir| > 0 && dir[|dir| - 1] == '/'
  }

  /** Resolving the reference "." against a request path: the directory that holds
      the path's last segment, always rooted and always ending in `/`. */
  function DirectoryOf(path: string): (dir: string)
    ensures |dir| > 0 && dir[0] == '/' && dir[|dir| - 1] == '/'
    ensures '/' !in path ==> dir == "/"
    ensures '/' in path && path[0] == '/' ==> IsDirectoryOf(path, dir)
    ensures '/' in path && path[0] != '/' ==> IsDirectoryOf(path, dir[1..])
  {
    var i := LastIndexOf(path, '/');
    if i < 0 then "/"
    else if path[0] == '/' then path[..i + 1]
    else "/" + path[..i + 1]
  }
}

=== FILE: percook.dfy ===
/** The cookie-jar wrapper: it records the scope key of every cookie written
    through it, forwards the write to the underlying jar, and exports every live
    cookie by re-querying the jar for each recorded scope.

    The underlying jar is an opaque state `J` with two operations passed in as
    functions: `write(j, u, cookies)` is the jar after a write, and `read(j)(u)`
    the cookies it returns for a request to `u`. */
module Percook {
  import opened Wrappers
  import opened Seqs
  import opened Http
  import opened ScopeKey
  import Reconciliation

  /** The wrapper's state: the underlying jar and the set of scope keys seen so far. */
  datatype CookieJar<J> = CookieJar(jar: J, seenKeys: set<Key>)

  /** One call of SetCookies: a request URL and the cookies written for it. */
  datatype Write = Write(url: URL, cookies: seq<Cookie>)

  /** A fresh wrapper around `jar`, with no scope recorded. */
  function New<J>(jar: J): (pj: CookieJar<J>)
    ensures pj.jar == jar && pj.seenKeys == {}
  {
    CookieJar(jar, {})
  }

  /** Records the scope key of one cookie, derived as the code derives it (the
      request host before the Domain attribute): an idempotent insert that never
      removes. */
  function StoreKey(seen: set<Key>, u: URL, c: Cookie): (r: set<Key>)
    requires DomainDefined(u, c)
    ensures ToKeyAsWritten(u, c) in r && seen <= r
    ensures forall k :: k in r ==> k in seen || k == ToKeyAsWritten(u, c)
    ensures ToKeyAsWritten(u, c) in seen ==> r == seen
  {
    seen + {ToKeyAsWritten(u, c)}
  }

  /** The scope keys of a batch of cookies written for `u`. */
  ghost function BatchKeys(u: URL, cookies: seq<Cookie>): set<Key>
    requires forall c :: c in cookies ==> DomainDefined(u, c)
  {
    set c | c in cookies :: ToKeyAsWritten(u, c)
  }

  lemma BatchKeysSplit(u: URL, cookies: seq<Cookie>)
    requires |cookies| > 0 && forall c :: c in cookies ==> DomainDefined(u, c)
    ensures BatchKeys(u, cookies) == {ToKeyAsWritten(u, cookies[0])} + BatchKeys(u, cookies[1..])
  {
    assert forall c :: c in cookies <==> c == cookies[0] || c in cookies[1..];
  }

  /** Records the scope key of every cookie of a batch, one after another: exactly
      the batch's keys are added and nothing is removed. */
  function RecordAll(seen: set<Key>, u: URL, cookies: seq<Cookie>): (r: set<Key>)
    requires forall c :: c in cookies ==> DomainDefined(u, c)
    ensures r == seen + BatchKeys(u, cookies)
    decreases |cookies|
  {
    if |cookies| == 0 then seen
    else
      var next := StoreKey(seen, u, cookies[0]);
      assert forall c :: c in cookies[1..] ==> c in cookies;
      var r := RecordAll(next, u, cookies[1..]);
      BatchKeysSplit(u, cookies);
      assert next == seen + {ToKeyAsWritten(u, cookies[0])};
      r
  }

  /** A write through the wrapper: the keys of the whole batch are recorded, and
      the batch goes unchanged to the underlying jar. */
  function SetCookies<J>(pj: CookieJar<J>, u: URL, cookies: seq<Cookie>, write: (J, URL, seq<Cookie>) -> J)
    : (r: CookieJar<J>)
    requires forall c :: c in cookies ==> DomainDefined(u, c)
    ensures r.jar == write(pj.jar, u, cookies)
    ensures r.seenKeys == pj.seenKeys + BatchKeys(u, cookies)
  {
    CookieJar(write(pj.jar, u, cookies), RecordAll(pj.seenKeys, u, cookies))
  }

  /** Whenever the request has a host, a write records the key the cookie would
      have without its Domain attribute: a Domain cookie written from a subdomain
      is recorded, and later exported, under that subdomain. */
  lemma RecordsRequestHost<J>(jar: J, u: URL, c: Cookie, write: (J, URL, seq<Cookie>) -> J)
    requires u.host != ""
    ensures SetCookies(New(jar), u, [c], write).seenKeys == {ToKey(u, c.(domain := ""))}
  {
    BatchKeysSplit(u, [c]);
    assert [c][1..] == [];
  }

  /** Re-parses the recorded keys, in the order they are enumerated; fails on the
      first key that is not a URL. */
  function Keys(order: seq<Key>): (r: Option<seq<URL>>)
    ensures r.Some? <==> forall i :: 0 <= i < |order| ==> ParseUrl(order[i]).Some?
    ensures r.Some? ==> |r.value| == |order|
    ensures r.Some? ==> forall i :: 0 <= i < |order| ==> ParseUrl(order[i]) == Some(r.value[i])
  {
    MapAll(order, ParseUrl)
  }

  /** `order` lists every element of `s` exactly once. */
  ghost predicate Enumerates(order: seq<Key>, s: set<Key>) {
    NoDuplicates(order) && forall k :: k in order <==> k in s
  }

  /** Every recorded key re-parses as a URL. */
  predicate KeysParse(seen: set<Key>) {
    forall k :: k in seen ==> ParseUrl(k).Some?
  }

  /** The export: None where the Go code panics on a recorded key that is not a
      URL; otherwise the reconciliation of the recorded scopes, enumerated in `order`. */
  function AllCookies<J>(pj: CookieJar<J>, order: seq<Key>, read: J -> URL -> seq<Cookie>,
                         etld: string -> Option<string>): (r: Option<seq<(URL, Cookie)>>)
    requires Enumerates(order, pj.seenKeys)
    ensures r.Some? <==> KeysParse(pj.seenKeys)
    ensures pj.seenKeys == {} ==> r == Some([])
    ensures r.Some? ==>
              exists urls :: (|urls| == |order|
                && (forall i :: 0 <= i < |order| ==> ParseUrl(order[i]) == Some(urls[i]))
                && r.value == Reconciliation.AllCookies(urls, read(pj.jar), etld))
  {
    KeysSucceedIffParsable(order, pj.seenKeys);
    match Keys(order)
    case None => None
    case Some(urls) =>
      assert pj.seenKeys == {} ==> urls == [] by {
        if |order| > 0 {
          assert order[0] in pj.seenKeys;
        }
      }
      Some(Reconciliation.AllCookies(urls, read(pj.jar), etld))
  }

  /** Re-parsing an enumeration succeeds exactly when every recorded key parses. */
  lemma KeysSucceedIffParsable(order: seq<Key>, s: set<Key>)
    requires Enumerates(order, s)
    ensures Keys(order).Some? <==> KeysParse(s)
  {
    if Keys(order).None? {
      var i :| 0 <= i < |order| && ParseUrl(order[i]).None?;
      assert order[i] in s;
    } else {
      forall k | k in s ensures ParseUrl(k).Some? {
        var i :| 0 <= i < |order| && order[i] == k;
      }
    }
  }

  /** The scope keys a sequence of writes records. */
  ghost function WrittenKeys(writes: seq<Write>): set<Key>
    requires forall w, c :: w in writes && c in w.cookies ==> DomainDefined(w.url, c)
  {
    set w, c | w in writes && c in w.cookies :: ToKeyAsWritten(w.url, c)
  }

  lemma WrittenKeysSplit(writes: seq<Write>)
    requires |writes| > 0 && forall w, c :: w in writes && c in w.cookies ==> DomainDefined(w.url, c)
    ensures WrittenKeys(writes) == BatchKeys(writes[0].url, writes[0].cookies) + WrittenKeys(writes[1..])
  {
    assert forall w :: w in writes <==> w == writes[0] || w in writes[1..];
  }

  /** Cookies whose key text Go's parser accepts record keys that re-parse. */
  lemma BatchKeysParse(u: URL, cookies: seq<Cookie>)
    requires forall c :: c in cookies ==> DomainDefined(u, c)
    ensures (forall c :: c in cookies ==> KeyTextValid(u, c, DomainAsWritten(u, c)))
            ==> KeysParse(BatchKeys(u, cookies))
  {
    if forall c :: c in cookies ==> KeyTextValid(u, c, DomainAsWritten(u, c)) {
      forall k | k in BatchKeys(u, cookies) ensures ParseUrl(k).Some? {
        var c :| c in cookies && k == ToKeyAsWritten(u, c);
        ToKeyAsWrittenParses(u, c);
      }
    }
  }

  /** Every write of the sequence has key text Go's parser accepts. */
  ghost predicate WritesTextValid(writes: seq<Write>)
    requires forall w, c :: w in writes && c in w.cookies ==> DomainDefined(w.url, c)
  {
    forall w, c :: w in writes && c in w.cookies ==> KeyTextValid(w.url, c, DomainAsWritten(w.url, c))
  }

  /** The wrapper after a sequence of writes: the jar has seen them all, and the
      recorded keys grow by exactly the keys of the written cookies, nothing else.
      Writes whose key text Go's parser accepts keep every recorded key parsable. */
  function Replay<J>(pj: CookieJar<J>, writes: seq<Write>, write: (J, URL, seq<Cookie>) -> J)
    : (r: CookieJar<J>)
    requires forall w, c :: w in writes && c in w.cookies ==> DomainDefined(w.url, c)
    ensures r.seenKeys == pj.seenKeys + WrittenKeys(writes)
    ensures KeysParse(pj.seenKeys) && WritesTextValid(writes) ==> KeysParse(r.seenKeys)
    decreases |writes|
  {
    if |writes| == 0 then pj
    else
      var next := SetCookies(pj, writes[0].url, writes[0].cookies, write);
      assert forall w :: w in writes[1..] ==> w in writes;
      BatchKeysParse(writes[0].url, writes[0].cookies);
      assert WritesTextValid(writes) ==>
               WritesTextValid(writes[1..])
               && forall c :: c in writes[0].cookies ==> KeyTextValid(writes[0].url, c, DomainAsWritten(writes[0].url, c));
      assert next.seenKeys == pj.seenKeys + BatchKeys(writes[0].url, writes[0].cookies);
      WrittenKeysSplit(writes);
      Replay(next, writes[1..], write)
  }

  /** Every key the wrapper records is one it derived itself, so the export of a
      wrapper built only by writes whose key text Go's parser accepts never hits
      the abort. */
  lemma ExportNeverAborts<J>(jar: J, writes: seq<Write>, write: (J, URL, seq<Cookie>) -> J,
                                               order: seq<Key>, read: J -> URL -> seq<Cookie>,
                                               etld: string -> Option<string>)
    requires forall w, c :: w in writes && c in w.cookies ==> DomainDefined(w.url, c)
    requires WritesTextValid(writes)
    requires Enumerates(order, Replay(New(jar), writes, write).seenKeys)
    ensures AllCookies(Replay(New(jar), writes, write), order, read, etld).Some?
  {
    assert KeysParse(New(jar).seenKeys);
  }

  /** A request path holding a literal `%` (Go's decoded form of `%25`) yields a key
      Go's parser refuses. Keys are never removed, so every later export aborts,
      whatever is written afterwards. */
  lemma PercentPathPoisonsExport<J>(jar: J, write: (J, URL, seq<Cookie>) -> J, host: string, later: seq<Write>,
                                    read: J -> URL -> seq<Cookie>, etld: string -> Option<string>)
    requires |host| > 0 && host[0] != '.'
    requires forall w, c :: w in later && c in w.cookies ==> DomainDefined(w.url, c)
    ensures var k := "http://" + host + "/a%b";
            k in PercentPathWrite(jar, write, host).seenKeys && ParseUrl(k).None?
    ensures var r := Replay(PercentPathWrite(jar, write, host), later, write);
            forall order :: Enumerates(order, r.seenKeys) ==> AllCookies(r, order, read, etld).None?
  {
    var k := "http://" + host + "/a%b";
    PercentPathKey(host);
    PercentPathRecorded(jar, write, host);
    assert k in PercentPathWrite(jar, write, host).seenKeys && ParseUrl(k).None?;
    AbortIsPermanent(PercentPathWrite(jar, write, host), later, write, read, etld);
  }

  lemma PercentPathRecorded<J>(jar: J, write: (J, URL, seq<Cookie>) -> J, host: string)
    requires host != ""
    ensures ToKeyAsWritten(URL("https", host, "/a%b/c"), Cookie("x", "1", "", "", false, false))
            in PercentPathWrite(jar, write, host).seenKeys
  {
    var c := Cookie("x", "1", "", "", false, false);
    assert c in [c];
  }

  /** Once a recorded key does not parse, every export after any further writes aborts. */
  lemma AbortIsPermanent<J>(pj: CookieJar<J>, later: seq<Write>, write: (J, URL, seq<Cookie>) -> J,
                            read: J -> URL -> seq<Cookie>, etld: string -> Option<string>)
    requires forall w, c :: w in later && c in w.cookies ==> DomainDefined(w.url, c)
    requires !KeysParse(pj.seenKeys)
    ensures var r := Replay(pj, later, write);
            forall order :: Enumerates(order, r.seenKeys) ==> AllCookies(r, order, read, etld).None?
  {
    var r := Replay(pj, later, write);
    var k :| k in pj.seenKeys && ParseUrl(k).None?;
    assert k in r.seenKeys;
    forall order | Enumerates(order, r.seenKeys) ensures AllCookies(r, order, read, etld).None? {
      assert !KeysParse(r.seenKeys);
    }
  }

  /** A fresh wrapper after one cookie `x=1`, without Path, written for
      `https://host/a%25b/c`: Go hands the request path over decoded, as `/a%b/c`. */
  function PercentPathWrite<J>(jar: J, write: (J, URL, seq<Cookie>) -> J, host: string): CookieJar<J>
    requires host != ""
  {
    SetCookies(New(jar), URL("https", host, "/a%b/c"), [Cookie("x", "1", "", "", false, false)], write)
  }
}

=== FILE: reconcile.dfy ===
/** Export reconciliation: every stored scope is queried twice (as written and
    under a throw-away subdomain), the returned cookies are grouped first by the
    concatenation of name and value and then by registrable domain (eTLD+1), and
    each group yields one representative whose Secure, Path and Domain are
    rebuilt from where it was observed.

    The cookie jar and the public-suffix list are parameters: `jar(u)` is what the
    jar returns for a request to `u`, `etld(host)` the registrable domain of `host`
    (None when the lookup fails). */
module Reconciliation {
  import opened Wrappers
  import opened Seqs
  import opened Http
  import opened Utils

  /** One cookie returned by the jar while re-querying a stored scope: the URL that
      was queried, the textual form of the stored scope it came from, the scope's
      registrable domain, and the cookie itself. */
  datatype Observation = Observation(url: URL, urlString: string, tldPlusOne: string, cookie: Cookie)

  /** The two-stage grouping key: name and value glued together, then the site. */
  datatype GroupKey = GroupKey(nameAndValue: string, tldPlusOne: string)

  /** One exported cookie, with the group it stands for. */
  datatype Entry = Entry(key: GroupKey, url: URL, cookie: Cookie)

  const SloppyPrefix: string := "sloppy."

  /** The first grouping key: plain concatenation, so ("ab", "c") and ("a", "bc") collide. */
  function NameAndValue(c: Cookie): string {
    c.name + c.value
  }

  function KeyOf(o: Observation): GroupKey {
    GroupKey(NameAndValue(o.cookie), o.tldPlusOne)
  }

  /** A stored scope with an empty path is queried at the root. */
  function NormalizePath(u: URL): URL {
    if u.path == "" then u.(path := "/") else u
  }

  /** The same scope one label deeper, which only Domain cookies also match. */
  function Sloppy(u: URL): URL {
    u.(host := SloppyPrefix + u.host)
  }

  /** The registrable domain of `host`, falling back to the host itself. */
  function TldPlusOne(etld: string -> Option<string>, host: string): string {
    etld(host).GetOr(host)
  }

  function At(url: URL, urlString: string, tld: string, cookies: seq<Cookie>): (r: seq<Observation>)
    ensures |r| == |cookies|
    ensures forall i :: 0 <= i < |cookies| ==> r[i] == Observation(url, urlString, tld, cookies[i])
  {
    seq(|cookies|, i requires 0 <= i < |cookies| => Observation(url, urlString, tld, cookies[i]))
  }

  /** Both queries for one stored scope `u`: first the scope itself, then its sloppy
      subdomain. Every observation carries the text of the scope itself, never of
      the subdomain, and the scope's registrable domain (the host when the lookup fails). */
  function Observe(u: URL, jar: URL -> seq<Cookie>, etld: string -> Option<string>): (r: seq<Observation>)
    ensures var n := NormalizePath(u);
            |r| == |jar(n)| + |jar(Sloppy(n))|
            && (forall i :: 0 <= i < |jar(n)| ==> r[i].url == n && r[i].cookie == jar(n)[i])
            && (forall i :: 0 <= i < |jar(Sloppy(n))| ==>
                  r[|jar(n)| + i].url == Sloppy(n) && r[|jar(n)| + i].cookie == jar(Sloppy(n))[i])
    ensures forall o :: o in r ==>
              o.urlString == UrlString(NormalizePath(u))
              && o.url.scheme == u.scheme && o.url.path != ""
              && (u.path != "" ==> o.url.path == u.path)
              && (o.url.host == u.host || o.url.host == SloppyPrefix + u.host)
              && (etld(u.host).None? ==> o.tldPlusOne == u.host)
              && (etld(u.host).Some? ==> o.tldPlusOne == etld(u.host).value)
  {
    var n := NormalizePath(u);
    var urlString := UrlString(n);
    var tld := TldPlusOne(etld, n.host);
    At(n, urlString, tld, jar(n)) + At(Sloppy(n), urlString, tld, jar(Sloppy(n)))
  }

  /** All observations, scope by scope in the given order. */
  function Observations(keys: seq<URL>, jar: URL -> seq<Cookie>, etld: string -> Option<string>)
    : (r: seq<Observation>)
    ensures forall o :: o in r <==> exists k :: 0 <= k < |keys| && o in Observe(keys[k], jar, etld)
  {
    if |keys| == 0 then []
    else
      var rest := Observations(keys[1..], jar, etld);
      assert forall k :: 1 <= k < |keys| ==> keys[1..][k - 1] == keys[k];
      Observe(keys[0], jar, etld) + rest
  }

  function NameIs(nameAndValue: string): Observation -> bool {
    (o: Observation) => NameAndValue(o.cookie) == nameAndValue
  }

  function TldIs(tld: string): Observation -> bool {
    (o: Observation) => o.tldPlusOne == tld
  }

  function HasKey(key: GroupKey): Observation -> bool {
    (o: Observation) => KeyOf(o) == key
  }

  function ByNameAndValue(obs: seq<Observation>, nameAndValue: string): seq<Observation> {
    Filter(obs, NameIs(nameAndValue))
  }

  function ByTldPlusOne(ints: seq<Observation>, tld: string): seq<Observation> {
    Filter(ints, TldIs(tld))
  }

  /** The observations of one group, in observation order: the name-and-value
      bucket, then within it the registrable-domain bucket. */
  function Group(obs: seq<Observation>, key: GroupKey): (g: seq<Observation>)
    ensures forall o :: o in g <==> o in obs && KeyOf(o) == key
    ensures IsSubsequence(g, obs)
  {
    var ints := ByNameAndValue(obs, key.nameAndValue);
    var g := ByTldPlusOne(ints, key.tldPlusOne);
    SubsequenceTransitive(g, ints, obs);
    g
  }

  /** The two-stage bucketing of a group is one pass that keeps exactly the
      observations with the group's key: in order, and as often as they occur. */
  lemma GroupIsFilter(obs: seq<Observation>, key: GroupKey)
    ensures Group(obs, key) == Filter(obs, HasKey(key))
    ensures forall o :: multiset(Group(obs, key))[o] == if KeyOf(o) == key then multiset(obs)[o] else 0
  {
    FilterFilter(obs, NameIs(key.nameAndValue), TldIs(key.tldPlusOne), HasKey(key));
    FilterCounts(obs, HasKey(key));
  }

  /** The groups that occur among `obs`. */
  function GroupKeys(obs: seq<Observation>): set<GroupKey> {
    set o | o in obs :: KeyOf(o)
  }

  /** The groups that a list of entries exports. */
  function EntryKeys(r: seq<Entry>): set<GroupKey> {
    set e | e in r :: e.key
  }

  /** The length the shortest-scope comparison uses: Go's `len`, in bytes. */
  function UrlLength(o: Observation): nat {
    Utf8Len(o.urlString)
  }

  /** The group was observed from at least two different hosts. */
  predicate SpansHosts(g: seq<Observation>) {
    exists i, j :: 0 <= i < |g| && 0 <= j < |g| && g[i].url.host != g[j].url.host
  }

  function Hosts(g: seq<Observation>): set<string> {
    set o | o in g :: o.url.host
  }

  /** Counting distinct hosts detects exactly the groups seen from two hosts. */
  lemma HostsSpan(g: seq<Observation>)
    ensures |Hosts(g)| > 1 <==> SpansHosts(g)
  {
    if SpansHosts(g) {
      var i, j :| 0 <= i < |g| && 0 <= j < |g| && g[i].url.host != g[j].url.host;
      assert {g[i].url.host, g[j].url.host} <= Hosts(g);
      assert |{g[i].url.host, g[j].url.host}| == 2;
      SubsetCardinality({g[i].url.host, g[j].url.host}, Hosts(g));
    }
    if |Hosts(g)| > 1 {
      var h :| h in Hosts(g);
      var rest := Hosts(g) - {h};
      assert |rest| == |Hosts(g)| - 1;
      var h' :| h' in rest;
      var i :| 0 <= i < |g| && g[i].url.host == h;
      var j :| 0 <= j < |g| && g[j].url.host == h';
      assert g[i].url.host != g[j].url.host;
    }
  }

  lemma SubsetCardinality(a: set<string>, b: set<string>)
    requires a <= b
    ensures |a| <= |b|
  {
    assert b == a + (b - a);
  }

  /** What a group's exported cookie must be: the first observation of least URL
      length, with Secure taken from the observed scheme, Path from the observed
      path, and Domain from the observed host exactly when the group spans hosts. */
  ghost predicate RepresentedBy(g: seq<Observation>, e: Entry) {
    exists i :: IsFirstMinimal(g, UrlLength, i)
      && e.url == g[i].url
      && e.cookie.name == g[i].cookie.name
      && e.cookie.value == g[i].cookie.value
      && e.cookie.httpOnly == g[i].cookie.httpOnly
      && (e.cookie.secure <==> e.url.scheme == "https")
      && e.cookie.path == e.url.path
      && (SpansHosts(g) ==> e.cookie.domain == e.url.host)
      && (!SpansHosts(g) ==> e.cookie.domain == g[i].cookie.domain)
  }

  /** The exported cookie of one non-empty group. */
  function Emit(key: GroupKey, g: seq<Observation>): (e: Entry)
    requires |g| > 0
    ensures e.key == key && RepresentedBy(g, e)
  {
    var i := FirstMinimal(g, UrlLength);
    var rep := g[i];
    var c := rep.cookie.(secure := rep.url.scheme == "https", path := rep.url.path);
    HostsSpan(g);
    Entry(key, rep.url, if |Hosts(g)| > 1 then c.(domain := rep.url.host) else c)
  }

  /** The representative a group exports is the earliest of the observations with
      the group's key whose URL text is shortest, over all observations. */
  lemma EmitIsEarliestShortest(obs: seq<Observation>, key: GroupKey) returns (j: nat)
    requires |Group(obs, key)| > 0
    ensures IsFirstMinimalWhere(obs, HasKey(key), UrlLength, j)
    ensures var e := Emit(key, Group(obs, key));
            e.url == obs[j].url && e.cookie.name == obs[j].cookie.name
            && e.cookie.value == obs[j].cookie.value && e.cookie.httpOnly == obs[j].cookie.httpOnly
  {
    GroupIsFilter(obs, key);
    var i := FirstMinimal(Group(obs, key), UrlLength);
    j := FilterFirstMinimal(obs, HasKey(key), UrlLength, i);
  }

  function NamesOf(obs: seq<Observation>): (r: seq<string>)
    ensures |r| == |obs| && forall i :: 0 <= i < |obs| ==> r[i] == NameAndValue(obs[i].cookie)
  {
    seq(|obs|, i requires 0 <= i < |obs| => NameAndValue(obs[i].cookie))
  }

  function TldsOf(obs: seq<Observation>): (r: seq<string>)
    ensures |r| == |obs| && forall i :: 0 <= i < |obs| ==> r[i] == obs[i].tldPlusOne
  {
    seq(|obs|, i requires 0 <= i < |obs| => obs[i].tldPlusOne)
  }

  function KeysOf(entries: seq<Entry>): (r: seq<GroupKey>)
    ensures |r| == |entries| && forall i :: 0 <= i < |entries| ==> r[i] == entries[i].key
  {
    seq(|entries|, i requires 0 <= i < |entries| => entries[i].key)
  }

  /** A group is non-empty exactly when it occurs among the observations. */
  lemma GroupNonEmpty(obs: seq<Observation>, key: GroupKey)
    ensures |Group(obs, key)| > 0 <==> key in GroupKeys(obs)
  {
    var g := Group(obs, key);
    if |g| > 0 {
      assert g[0] in g;
    }
    if key in GroupKeys(obs) {
      var o :| o in obs && KeyOf(o) == key;
      assert o in g;
    }
  }

  lemma OccurringGroupsNonEmpty(obs: seq<Observation>, ks: seq<GroupKey>)
    requires forall k :: k in ks ==> k in GroupKeys(obs)
    ensures forall i :: 0 <= i < |ks| ==> |Group(obs, ks[i])| > 0
  {
    forall i | 0 <= i < |ks| ensures |Group(obs, ks[i])| > 0 {
      GroupNonEmpty(obs, ks[i]);
    }
  }

  /** The registrable domains one name-and-value string was observed under, each
      once, in order of first observation. */
  function SitesOf(obs: seq<Observation>, nameAndValue: string): (tlds: seq<string>)
    ensures NoDuplicates(tlds)
    ensures forall t :: t in tlds <==> GroupKey(nameAndValue, t) in GroupKeys(obs)
  {
    var ints := ByNameAndValue(obs, nameAndValue);
    SitesAre(obs, nameAndValue, ints);
    Distinct(TldsOf(ints))
  }

  lemma SitesAre(obs: seq<Observation>, nameAndValue: string, ints: seq<Observation>)
    requires ints == ByNameAndValue(obs, nameAndValue)
    ensures forall t :: t in TldsOf(ints) <==> GroupKey(nameAndValue, t) in GroupKeys(obs)
  {
    forall t | t in TldsOf(ints) ensures GroupKey(nameAndValue, t) in GroupKeys(obs) {
      var m :| 0 <= m < |TldsOf(ints)| && TldsOf(ints)[m] == t;
      assert ints[m] in ints;
    }
    forall t | GroupKey(nameAndValue, t) in GroupKeys(obs) ensures t in TldsOf(ints) {
      var o :| o in obs && KeyOf(o) == GroupKey(nameAndValue, t);
      assert o in ints;
      var m :| 0 <= m < |ints| && ints[m] == o;
      assert TldsOf(ints)[m] == t;
    }
  }

  /** The group keys of one name-and-value string, one per listed site. */
  function KeysFor(nameAndValue: string, tlds: seq<string>): (ks: seq<GroupKey>)
    ensures |ks| == |tlds| && forall i :: 0 <= i < |tlds| ==> ks[i] == GroupKey(nameAndValue, tlds[i])
  {
    seq(|tlds|, i requires 0 <= i < |tlds| => GroupKey(nameAndValue, tlds[i]))
  }

  /** The groups in the order they are emitted: for each listed name-and-value
      string, its registrable domains in order of first observation. Every group
      of a listed string occurs, and none twice. */
  function GroupOrder(obs: seq<Observation>, names: seq<string>): (ks: seq<GroupKey>)
    requires NoDuplicates(names)
    ensures NoDuplicates(ks)
    ensures forall k :: k in ks <==> k.nameAndValue in names && k in GroupKeys(obs)
  {
    if |names| == 0 then []
    else
      var head := KeysFor(names[0], SitesOf(obs, names[0]));
      assert forall i, j :: 0 <= i < j < |names[1..]| ==> names[1..][i] == names[i + 1] && names[1..][j] == names[j + 1];
      var rest := GroupOrder(obs, names[1..]);
      GroupOrderStep(obs, names, head, rest);
      head + rest
  }

  lemma GroupOrderStep(obs: seq<Observation>, names: seq<string>, head: seq<GroupKey>, rest: seq<GroupKey>)
    requires |names| > 0 && NoDuplicates(names)
    requires head == KeysFor(names[0], SitesOf(obs, names[0]))
    requires NoDuplicates(rest)
    requires forall k :: k in rest <==> k.nameAndValue in names[1..] && k in GroupKeys(obs)
    ensures NoDuplicates(head + rest)
    ensures forall k :: k in head + rest <==> k.nameAndValue in names && k in GroupKeys(obs)
  {
    var tlds := SitesOf(obs, names[0]);
    assert names[0] !in names[1..] by {
      forall m | 0 <= m < |names[1..]| ensures names[1..][m] != names[0] {
        assert names[1..][m] == names[m + 1];
      }
    }
    forall i, j | 0 <= i < j < |head| ensures head[i] != head[j] {
      assert tlds[i] != tlds[j];
    }
    forall i, j | 0 <= i < |head| && 0 <= j < |rest| ensures head[i] != rest[j] {
      assert rest[j] in rest;
    }
    NoDuplicatesConcat(head, rest);
    forall k ensures k in head + rest <==> k.nameAndValue in names && k in GroupKeys(obs) {
      assert k.nameAndValue in names <==> k.nameAndValue == names[0] || k.nameAndValue in names[1..];
      if k in head {
        var i :| 0 <= i < |head| && head[i] == k;
        assert tlds[i] in tlds;
      }
      if k.nameAndValue == names[0] && k in GroupKeys(obs) {
        assert k.tldPlusOne in tlds;
        var i :| 0 <= i < |tlds| && tlds[i] == k.tldPlusOne;
        assert head[i] == k;
      }
    }
  }

  /** Every observed group's name-and-value string is among the observed names. */
  lemma NamesCover(obs: seq<Observation>)
    ensures forall k :: k in GroupKeys(obs) ==> k.nameAndValue in NamesOf(obs)
  {
    forall k | k in GroupKeys(obs) ensures k.nameAndValue in NamesOf(obs) {
      var o :| o in obs && KeyOf(o) == k;
      var m :| 0 <= m < |obs| && obs[m] == o;
      assert NamesOf(obs)[m] == k.nameAndValue;
    }
  }

  /** One entry per listed group, in order: what each group exports. */
  function EmitAll(obs: seq<Observation>, ks: seq<GroupKey>): (r: seq<Entry>)
    requires forall i :: 0 <= i < |ks| ==> |Group(obs, ks[i])| > 0
    ensures |r| == |ks|
    ensures forall i :: 0 <= i < |r| ==> r[i].key == ks[i] && RepresentedBy(Group(obs, ks[i]), r[i])
  {
    seq(|ks|, i requires 0 <= i < |ks| => Emit(ks[i], Group(obs, ks[i])))
  }

  /** Reconciles a sequence of observations: one entry per group that occurs, none
      twice, and each entry is its non-empty group's representative. */
  function Reconcile(obs: seq<Observation>): (r: seq<Entry>)
    ensures NoDuplicates(KeysOf(r))
    ensures forall k :: k in KeysOf(r) <==> k in GroupKeys(obs)
    ensures forall i :: 0 <= i < |r| ==> |Group(obs, r[i].key)| > 0
    ensures forall i :: 0 <= i < |r| ==> RepresentedBy(Group(obs, r[i].key), r[i])
  {
    var names := Distinct(NamesOf(obs));
    NamesCover(obs);
    var ks := GroupOrder(obs, names);
    OccurringGroupsNonEmpty(obs, ks);
    EmitAllKeys(obs, ks);
    EmitAll(obs, ks)
  }

  lemma EmitAllKeys(obs: seq<Observation>, ks: seq<GroupKey>)
    requires forall i :: 0 <= i < |ks| ==> |Group(obs, ks[i])| > 0
    ensures KeysOf(EmitAll(obs, ks)) == ks
  {
    var r := EmitAll(obs, ks);
    assert forall i :: 0 <= i < |ks| ==> KeysOf(r)[i] == ks[i];
  }

  /** `u` has the scheme of a stored scope and its host, or the host's sloppy subdomain. */
  predicate AtScope(keys: seq<URL>, u: URL) {
    exists k :: 0 <= k < |keys| && u.scheme == keys[k].scheme
      && (u.host == keys[k].host || u.host == SloppyPrefix + keys[k].host)
  }

  /** An exported cookie as its URL dictates: Secure exactly for `https`, Path the
      URL's (never empty), at a stored scope. */
  predicate WellPlaced(keys: seq<URL>, u: URL, c: Cookie) {
    (c.secure <==> u.scheme == "https") && c.path == u.path && c.path != "" && AtScope(keys, u)
  }

  /** The export over stored scopes `keys` (in the order they are enumerated):
      pairs of a URL and the cookie exported under it. */
  function AllCookies(keys: seq<URL>, jar: URL -> seq<Cookie>, etld: string -> Option<string>)
    : (r: seq<(URL, Cookie)>)
    ensures keys == [] ==> r == []
    ensures |r| == |GroupKeys(Observations(keys, jar, etld))|
    ensures forall i :: 0 <= i < |r| ==> WellPlaced(keys, r[i].0, r[i].1)
  {
    var entries := Reconcile(Observations(keys, jar, etld));
    EntryFacts(keys, jar, etld);
    var r := Pairs(entries);
    assert keys == [] ==> r == [] by {
      if keys == [] {
        NothingStored(jar, etld);
      }
    }
    r
  }

  function Pairs(entries: seq<Entry>): (r: seq<(URL, Cookie)>)
    ensures |r| == |entries| && forall i :: 0 <= i < |entries| ==> r[i] == (entries[i].url, entries[i].cookie)
  {
    seq(|entries|, i requires 0 <= i < |entries| => (entries[i].url, entries[i].cookie))
  }

  /** What every reconciled entry says about where it was observed, and how many
      there are. */
  lemma EntryFacts(keys: seq<URL>, jar: URL -> seq<Cookie>, etld: string -> Option<string>)
    ensures var entries := Reconcile(Observations(keys, jar, etld));
            |entries| == |GroupKeys(Observations(keys, jar, etld))|
            && forall i :: 0 <= i < |entries| ==> WellPlaced(keys, entries[i].url, entries[i].cookie)
  {
    var obs := Observations(keys, jar, etld);
    var entries := Reconcile(obs);
    EntriesCount(obs, entries);
    forall i | 0 <= i < |entries| ensures WellPlaced(keys, entries[i].url, entries[i].cookie) {
      var o := RepresentativeIn(Group(obs, entries[i].key), entries[i]);
      var k := ObservedFrom(keys, jar, etld, o);
    }
  }

  /** With no stored scope there is nothing to reconcile. */
  lemma NothingStored(jar: URL -> seq<Cookie>, etld: string -> Option<string>)
    ensures Reconcile(Observations([], jar, etld)) == []
  {
    var obs := Observations([], jar, etld);
    assert obs == [];
    assert GroupKeys(obs) == {};
    EntriesCount(obs, Reconcile(obs));
  }

  /** Which stored scope an observation came from, and what that says of its URL. */
  lemma ObservedFrom(keys: seq<URL>, jar: URL -> seq<Cookie>, etld: string -> Option<string>, o: Observation)
    returns (k: nat)
    requires o in Observations(keys, jar, etld)
    ensures k < |keys| && o.url.scheme == keys[k].scheme && o.url.path != ""
    ensures o.url.host == keys[k].host || o.url.host == SloppyPrefix + keys[k].host
  {
    k :| 0 <= k < |keys| && o in Observe(keys[k], jar, etld);
  }

  lemma RepresentativeIn(g: seq<Observation>, e: Entry) returns (o: Observation)
    requires RepresentedBy(g, e)
    ensures o in g && e.url == o.url && e.cookie.path == o.url.path
    ensures e.cookie.secure <==> e.url.scheme == "https"
  {
    var j :| IsFirstMinimal(g, UrlLength, j) && e.url == g[j].url && e.cookie.path == e.url.path;
    o := g[j];
  }

  /** Entries with distinct keys, one per occurring group, are as many as the groups. */
  lemma EntriesCount(obs: seq<Observation>, entries: seq<Entry>)
    requires NoDuplicates(KeysOf(entries))
    requires forall k :: k in KeysOf(entries) <==> k in GroupKeys(obs)
    ensures |entries| == |GroupKeys(obs)|
  {
    NoDuplicatesCardinality(KeysOf(entries));
    assert (set k | k in KeysOf(entries)) == GroupKeys(obs);
  }
}

=== FILE: reconcile_facts.dfy ===
/** Order-independent and per-group facts about the reconciliation. */
module ReconciliationFacts {
  import opened Wrappers
  import opened Seqs
  import opened Http
  import opened Reconciliation

  /** Every group of observations is exported exactly once. */
  lemma ExactlyOnePerGroup(obs: seq<Observation>, o: Observation)
    requires o in obs
    ensures var r := Reconcile(obs);
            exists i :: 0 <= i < |r| && r[i].key == KeyOf(o)
              && forall j :: 0 <= j < |r| && r[j].key == KeyOf(o) ==> j == i
  {
    var r := Reconcile(obs);
    ObservedGroupListed(obs, o);
    var i := EntryOf(r, KeyOf(o));
    KeyListedOnce(r, i);
  }

  /** Every observed group is among the exported keys. */
  lemma ObservedGroupListed(obs: seq<Observation>, o: Observation)
    requires o in obs
    ensures KeyOf(o) in KeysOf(Reconcile(obs))
  {
    assert KeyOf(o) in GroupKeys(obs);
  }

  /** In entries whose keys never repeat, an entry is the only one with its key. */
  lemma KeyListedOnce(r: seq<Entry>, i: nat)
    requires NoDuplicates(KeysOf(r)) && i < |r|
    ensures forall j :: 0 <= j < |r| && r[j].key == r[i].key ==> j == i
  {
    forall j | 0 <= j < |r| && r[j].key == r[i].key ensures j == i {
      assert KeysOf(r)[j] == KeysOf(r)[i];
    }
  }

  lemma EntryOf(r: seq<Entry>, key: GroupKey) returns (i: nat)
    requires key in KeysOf(r)
    ensures i < |r| && r[i].key == key
  {
    i :| 0 <= i < |KeysOf(r)| && KeysOf(r)[i] == key;
  }

  /** Cookies equal in name and value but observed under different registrable
      domains are never merged: each is exported on its own. */
  lemma SitesStaySeparate(obs: seq<Observation>, a: Observation, b: Observation)
    requires a in obs && b in obs
    requires NameAndValue(a.cookie) == NameAndValue(b.cookie) && a.tldPlusOne != b.tldPlusOne
    ensures var r := Reconcile(obs);
            exists i, j :: 0 <= i < |r| && 0 <= j < |r| && i != j
              && r[i].key == KeyOf(a) && r[j].key == KeyOf(b)
  {
    var r := Reconcile(obs);
    assert KeyOf(a) != KeyOf(b);
    ObservedGroupListed(obs, a);
    ObservedGroupListed(obs, b);
    var i := EntryOf(r, KeyOf(a));
    var j := EntryOf(r, KeyOf(b));
  }

  /** The set of groups depends only on the set of stored scopes, not on the order
      in which they are enumerated; so does the number of exported cookies. */
  lemma OrderIndependentGroups(a: seq<URL>, b: seq<URL>, jar: URL -> seq<Cookie>,
                                                   etld: string -> Option<string>)
    requires forall u :: u in a <==> u in b
    ensures EntryKeys(Reconcile(Observations(a, jar, etld)))
         == EntryKeys(Reconcile(Observations(b, jar, etld)))
    ensures |AllCookies(a, jar, etld)| == |AllCookies(b, jar, etld)|
  {
    var oa := Observations(a, jar, etld);
    var ob := Observations(b, jar, etld);
    SameObservations(a, b, jar, etld);
    GroupsOf(oa);
    GroupsOf(ob);
    assert GroupKeys(oa) == GroupKeys(ob);
  }

  /** Two enumerations of the same scopes observe the same cookies. */
  lemma SameObservations(a: seq<URL>, b: seq<URL>, jar: URL -> seq<Cookie>, etld: string -> Option<string>)
    requires forall u :: u in a <==> u in b
    ensures forall o :: o in Observations(a, jar, etld) <==> o in Observations(b, jar, etld)
  {
    forall o | o in Observations(a, jar, etld) ensures o in Observations(b, jar, etld) {
      var k :| 0 <= k < |a| && o in Observe(a[k], jar, etld);
      assert a[k] in b;
      var m :| 0 <= m < |b| && b[m] == a[k];
    }
    forall o | o in Observations(b, jar, etld) ensures o in Observations(a, jar, etld) {
      var k :| 0 <= k < |b| && o in Observe(b[k], jar, etld);
      assert b[k] in a;
      var m :| 0 <= m < |a| && a[m] == b[k];
    }
  }

  /** The keys of the reconciled entries are exactly the groups of the observations. */
  lemma GroupsOf(obs: seq<Observation>)
    ensures EntryKeys(Reconcile(obs)) == GroupKeys(obs)
  {
    var r := Reconcile(obs);
    EntryKeysListed(r);
    assert forall k :: k in EntryKeys(r) <==> k in GroupKeys(obs);
  }

  /** The set of exported groups holds exactly the listed keys. */
  lemma EntryKeysListed(r: seq<Entry>)
    ensures forall k :: k in EntryKeys(r) <==> k in KeysOf(r)
  {
    forall e | e in r ensures e.key in KeysOf(r) {
      var i :| 0 <= i < |r| && r[i] == e;
      assert KeysOf(r)[i] == e.key;
    }
    forall k | k in KeysOf(r) ensures k in EntryKeys(r) {
      var i :| 0 <= i < |KeysOf(r)| && KeysOf(r)[i] == k;
      assert r[i] in r;
    }
  }
}

=== FILE: scopekey.dfy ===
/** Deriving the scope key of a written cookie: `scheme + "://" + domain + path`,
    the narrowest URL the cookie was set against. */
module ScopeKey {
  import opened Seqs
  import opened Utils
  import opened Http

  type Key = string

  /** The key's scheme part, chosen by the Secure flag alone. */
  function SchemePrefix(c: Cookie): string {
    if c.secure then "https://" else "http://"
  }

  /** Key derivation indexes the first character of the chosen domain, so one of
      the two candidates must be non-empty. */
  predicate DomainDefined(u: URL, c: Cookie) {
    c.domain != "" || u.host != ""
  }

  /** `host` is `domain` with exactly one leading dot removed, if it had one. */
  predicate OneDotStripped(domain: string, host: string) {
    |domain| > 0 && (if domain[0] == '.' then host == domain[1..] else host == domain)
  }

  function StripLeadingDot(domain: string): (host: string)
    requires |domain| > 0
    ensures OneDotStripped(domain, host)
  {
    if domain[0] == '.' then domain[1..] else domain
  }

  /** The domain the key is built from: the cookie's Domain attribute when set,
      otherwise the request host. */
  function ChosenDomain(u: URL, c: Cookie): (d: string)
    ensures c.domain != "" ==> d == c.domain
    ensures c.domain == "" ==> d == u.host
  {
    StringCoalesceWithDefault(u.host, [c.domain])
  }

  /** The key's path part: the explicit Path attribute, or else the default path of
      the request (its directory) with the one trailing slash cut off. */
  function KeyPath(u: URL, c: Cookie): (p: string)
    ensures c.path != "" ==> p == c.path
    ensures c.path == "" && '/' !in u.path ==> p == ""
    ensures c.path == "" && '/' in u.path && u.path[0] == '/' ==> IsDirectoryOf(u.path, p + "/")
    ensures c.path == "" ==> p == "" || p[0] == '/'
  {
    if |c.path| > 0 then c.path
    else
      var dir := StringCoalesceWithDefault("/", [DirectoryOf(u.path)]);
      if |dir| > 0 && dir[|dir| - 1] == '/' then
        assert dir == dir[..|dir| - 1] + "/";
        dir[..|dir| - 1]
      else dir
  }

  /** `scheme + domain + path`, for whichever domain a caller chose. */
  function Assemble(u: URL, c: Cookie, domain: string): Key
    requires |domain| > 0
  {
    SchemePrefix(c) + StripLeadingDot(domain) + KeyPath(u, c)
  }

  /** The characters a key is built from are ones Go's URL parser accepts: the
      domain and the key path hold no control character and no malformed `%` escape. */
  predicate KeyTextValid(u: URL, c: Cookie, domain: string) {
    ValidText(domain) && ValidText(KeyPath(u, c))
  }

  /** The scope key of cookie `c` written for request `u`. It names the scheme the
      Secure flag allows and keeps an explicit path verbatim. */
  function ToKey(u: URL, c: Cookie): (k: Key)
    requires DomainDefined(u, c)
    ensures c.secure <==> |k| >= 8 && k[..8] == "https://"
    ensures !c.secure <==> |k| >= 7 && k[..7] == "http://"
    ensures c.path != "" ==> |c.path| <= |k| && k[|k| - |c.path|..] == c.path
  {
    var k := Assemble(u, c, ChosenDomain(u, c));
    AssembledKeyParses(u, c, ChosenDomain(u, c));
    k
  }

  /** Every derived key whose text Go's parser accepts re-parses as a URL. */
  lemma ToKeyParses(u: URL, c: Cookie)
    requires DomainDefined(u, c) && KeyTextValid(u, c, ChosenDomain(u, c))
    ensures ParseUrl(ToKey(u, c)).Some?
  {
    AssembledKeyParses(u, c, ChosenDomain(u, c));
    AssembledTextValid(u, c, ChosenDomain(u, c));
  }

  /** The URL a key spells out: the scheme the Secure flag selects, the domain
      with one leading dot dropped, and the key path. */
  function KeyUrl(u: URL, c: Cookie, domain: string): URL
    requires |domain| > 0
  {
    URL(if c.secure then "https" else "http", StripLeadingDot(domain), KeyPath(u, c))
  }

  lemma AssembleRenders(u: URL, c: Cookie, domain: string)
    requires |domain| > 0
    ensures Assemble(u, c, domain) == UrlString(KeyUrl(u, c, domain))
  {
    assert SchemePrefix(c) == KeyUrl(u, c, domain).scheme + "://";
  }

  lemma AssembledKeyParses(u: URL, c: Cookie, domain: string)
    requires |domain| > 0
    ensures var k := Assemble(u, c, domain);
            (c.secure <==> |k| >= 8 && k[..8] == "https://")
            && (!c.secure <==> |k| >= 7 && k[..7] == "http://")
            && HasAuthority(k)
  {
    var rest := StripLeadingDot(domain) + KeyPath(u, c);
    assert Assemble(u, c, domain) == SchemePrefix(c) + rest;
    PrefixDecidesScheme(c.secure, rest);
    AssembleRenders(u, c, domain);
    RenderedHasAuthority(KeyUrl(u, c, domain));
  }

  /** A key assembled from acceptable text is acceptable text. */
  lemma AssembledTextValid(u: URL, c: Cookie, domain: string)
    requires |domain| > 0 && KeyTextValid(u, c, domain)
    ensures ValidText(Assemble(u, c, domain))
  {
    if domain[0] == '.' {
      ValidTextSuffix(domain, 1);
    }
    SchemePrefixValid(c);
    ValidTextConcat(SchemePrefix(c), StripLeadingDot(domain));
    ValidTextConcat(SchemePrefix(c) + StripLeadingDot(domain), KeyPath(u, c));
  }

  lemma SchemePrefixValid(c: Cookie)
    ensures ValidText(SchemePrefix(c))
  {
    var p := SchemePrefix(c);
    forall i | 0 <= i < |p| ensures AcceptedAt(p, i) {
      assert p[i] in "htps:/";
    }
  }

  /** After the scheme prefix, a key starts with `https://` or with `http://`, never both. */
  lemma PrefixDecidesScheme(secure: bool, rest: string)
    ensures var k := (if secure then "https://" else "http://") + rest;
            (secure <==> |k| >= 8 && k[..8] == "https://")
            && (!secure <==> |k| >= 7 && k[..7] == "http://")
  {
    var scheme := if secure then "https://" else "http://";
    var k := scheme + rest;
    assert k[..|scheme|] == scheme;
    assert k[4] == (if secure then 's' else ':');
  }

  /** A stored key re-parses into the URL that the scope describes: the scheme the
      Secure flag selects, the Domain attribute (else the request host) with one
      leading dot dropped, and the explicit path (else the request's directory
      without its trailing slash). */
  lemma ToKeyRoundTrip(u: URL, c: Cookie)
    requires DomainDefined(u, c)
    requires '/' !in (if c.domain != "" then c.domain else u.host)
    requires c.path == "" || c.path[0] == '/'
    requires u.path == "" || u.path[0] == '/'
    requires KeyTextValid(u, c, if c.domain != "" then c.domain else u.host)
    ensures var r := ParseUrl(ToKey(u, c));
            r.Some?
            && (r.value.scheme == "https" <==> c.secure)
            && (r.value.scheme == "http" <==> !c.secure)
            && OneDotStripped(if c.domain != "" then c.domain else u.host, r.value.host)
            && (c.path != "" ==> r.value.path == c.path)
            && (c.path == "" && '/' in u.path ==> IsDirectoryOf(u.path, r.value.path + "/"))
            && (c.path == "" && '/' !in u.path ==> r.value.path == "")
  {
    var domain := ChosenDomain(u, c);
    var url := KeyUrl(u, c, domain);
    AssembleRenders(u, c, domain);
    assert '/' !in url.host by {
      if domain[0] == '.' {
        assert forall i :: 0 <= i < |url.host| ==> url.host[i] == domain[i + 1];
      }
    }
    assert WellSeparated(url);
    KeyUrlValid(u, c, domain);
    ParseUrlString(url);
  }

  /** The parts of a key's URL are acceptable text when the key's domain and path are. */
  lemma KeyUrlValid(u: URL, c: Cookie, domain: string)
    requires |domain| > 0 && KeyTextValid(u, c, domain)
    ensures var url := KeyUrl(u, c, domain);
            ValidText(url.scheme) && ValidText(url.host) && ValidText(url.path)
  {
    if domain[0] == '.' {
      ValidTextSuffix(domain, 1);
    }
    var scheme := KeyUrl(u, c, domain).scheme;
    forall i | 0 <= i < |scheme| ensures AcceptedAt(scheme, i) {
      assert scheme[i] in "htps";
    }
  }

  /** Without a Path attribute, a request path `p + "/" + leaf` (leaf free of `/`)
      is keyed by `p`: the request's directory less its trailing slash. */
  lemma DefaultPathIsDirectory(u: URL, c: Cookie, p: string, leaf: string)
    requires c.path == "" && u.path == p + "/" + leaf && '/' !in leaf
    requires p == "" || p[0] == '/'
    ensures KeyPath(u, c) == p
  {
    var n := |p|;
    assert u.path[n] == '/' && u.path[n + 1..] == leaf && u.path[0] == '/';
    LastIndexOfAt(u.path, '/', n);
    assert DirectoryOf(u.path) == p + "/";
  }

  /** A host-only cookie without Path is keyed by the directory of the request
      path: written to `/test/1234` it is keyed `/test`; written to the root it
      gets an empty key path. */
  lemma DefaultPathExamples(host: string, c: Cookie)
    requires |host| > 0 && host[0] != '.'
    requires c.path == "" && c.domain == ""
    ensures c.secure ==> ToKey(URL("https", host, "/test/1234"), c) == "https://" + host + "/test"
    ensures !c.secure ==> ToKey(URL("https", host, "/"), c) == "http://" + host
  {
    NestedDefaultPath(host, c);
    RootDefaultPath(host, c);
  }

  lemma NestedDefaultPath(host: string, c: Cookie)
    requires |host| > 0 && host[0] != '.'
    requires c.path == "" && c.domain == ""
    ensures ToKey(URL("https", host, "/test/1234"), c) == SchemePrefix(c) + host + "/test"
  {
    var u := URL("https", host, "/test/1234");
    assert u.path == "/test" + "/" + "1234";
    DefaultPathIsDirectory(u, c, "/test", "1234");
  }

  lemma RootDefaultPath(host: string, c: Cookie)
    requires |host| > 0 && host[0] != '.'
    requires c.path == "" && c.domain == ""
    ensures ToKey(URL("https", host, "/"), c) == SchemePrefix(c) + host
  {
    var u := URL("https", host, "/");
    assert u.path == "" + "/" + "";
    DefaultPathIsDirectory(u, c, "", "");
    assert SchemePrefix(c) + host + "" == SchemePrefix(c) + host;
  }

  /** The domain percook.go:29 actually picks. The coalescing helper takes its
      default FIRST, so the request host wins whenever it is non-empty and the
      Domain attribute is consulted only for a host-less request. */
  function DomainAsWritten(u: URL, c: Cookie): (d: string)
    ensures u.host != "" ==> d == u.host
    ensures u.host == "" ==> d == c.domain
  {
    StringCoalesceWithDefault(c.domain, [u.host])
  }

  /** The key as percook.go derives it, from the domain it actually picks. */
  function ToKeyAsWritten(u: URL, c: Cookie): (k: Key)
    requires DomainDefined(u, c)
    ensures u.host != "" ==> k == ToKey(u, c.(domain := ""))
    ensures u.host == "" ==> k == ToKey(u, c)
  {
    Assemble(u, c, DomainAsWritten(u, c))
  }

  /** A key as written whose text Go's parser accepts re-parses as a URL as well. */
  lemma ToKeyAsWrittenParses(u: URL, c: Cookie)
    requires DomainDefined(u, c) && KeyTextValid(u, c, DomainAsWritten(u, c))
    ensures ParseUrl(ToKeyAsWritten(u, c)).Some?
  {
    AssembledKeyParses(u, c, DomainAsWritten(u, c));
    AssembledTextValid(u, c, DomainAsWritten(u, c));
  }

  /** The key with `%` and control characters in its domain and path
      percent-escaped, which is all the parser of this model requires. It re-parses
      for every cookie and request, and it is the key as written whenever that
      key's text needs no escaping. */
  function ToKeyEscaped(u: URL, c: Cookie): (k: Key)
    requires DomainDefined(u, c)
    ensures ParseUrl(k).Some?
    ensures var d := DomainAsWritten(u, c);
            KeyTextValid(u, c, d) && '%' !in d && '%' !in KeyPath(u, c) ==> k == ToKeyAsWritten(u, c)
  {
    var d := DomainAsWritten(u, c);
    EscapedKeyParses(c, StripLeadingDot(d), KeyPath(u, c));
    CleanDomainNeedsNoEscape(d);
    SchemePrefix(c) + Escape(StripLeadingDot(d)) + Escape(KeyPath(u, c))
  }

  lemma EscapedKeyParses(c: Cookie, host: string, path: string)
    ensures ParseUrl(SchemePrefix(c) + Escape(host) + Escape(path)).Some?
  {
    PrefixedTextParses(c, Escape(host), Escape(path));
  }

  /** Acceptable text after a key's scheme prefix re-parses. */
  lemma PrefixedTextParses(c: Cookie, host: string, path: string)
    requires ValidText(host) && ValidText(path)
    ensures ParseUrl(SchemePrefix(c) + host + path).Some?
  {
    var url := URL(if c.secure then "https" else "http", host, path);
    assert SchemePrefix(c) == url.scheme + "://";
    assert ':' !in url.scheme;
    RenderedHasAuthority(url);
    SchemePrefixValid(c);
    ValidTextConcat(SchemePrefix(c), host);
    ValidTextConcat(SchemePrefix(c) + host, path);
  }

  lemma CleanDomainNeedsNoEscape(d: string)
    requires |d| > 0
    ensures ValidText(d) && '%' !in d ==> Escape(StripLeadingDot(d)) == StripLeadingDot(d)
  {
    if ValidText(d) && '%' !in d && d[0] == '.' {
      ValidTextSuffix(d, 1);
      assert forall i :: 0 <= i < |d[1..]| ==> d[1..][i] == d[i + 1];
    }
  }

  /** A cookie without Path written for the decoded request path `/a%b/c` is keyed
      `http://host/a%b`, whose bare `%` Go's parser refuses. */
  lemma PercentPathKey(host: string)
    requires |host| > 0 && host[0] != '.'
    ensures var k := ToKeyAsWritten(URL("https", host, "/a%b/c"), Cookie("x", "1", "", "", false, false));
            k == "http://" + host + "/a%b" && ParseUrl(k).None?
  {
    var u := URL("https", host, "/a%b/c");
    var c := Cookie("x", "1", "", "", false, false);
    assert u.path == "/a%b" + "/" + "c";
    DefaultPathIsDirectory(u, c, "/a%b", "c");
    var k := "http://" + host + "/a%b";
    assert ToKeyAsWritten(u, c) == k;
    assert k[|k| - 2] == '%';
    MalformedEscapeRefused(k, |k| - 2);
  }

  /** A Path that does not start with `/` is pasted straight after the domain, so
      the re-parsed key names a different host: `Path=foo` set from `https://host/`
      is keyed `http://hostfoo`, which re-parses with host `hostfoo`. */
  lemma UnrootedPathJoinsHost(host: string)
    requires |host| > 0 && host[0] != '.' && '/' !in host && ValidText(host)
    ensures var r := ParseUrl(ToKeyAsWritten(URL("https", host, "/"), Cookie("x", "1", "foo", "", false, false)));
            r.Some? && r.value == URL("http", host + "foo", "")
  {
    var url := URL("http", host + "foo", "");
    assert ToKeyAsWritten(URL("https", host, "/"), Cookie("x", "1", "foo", "", false, false))
        == "http://" + host + "foo";
    assert "http://" + host + "foo" == UrlString(url);
    assert ValidText("foo") by {
      assert AcceptedAt("foo", 0) && AcceptedAt("foo", 1) && AcceptedAt("foo", 2);
    }
    ValidTextConcat(host, "foo");
    assert ValidText("http") by {
      assert AcceptedAt("http", 0) && AcceptedAt("http", 1) && AcceptedAt("http", 2) && AcceptedAt("http", 3);
    }
    ParseUrlString(url);
  }

  /** The key path section 5.2.4 of RFC 6265 prescribes: a Path attribute counts only
      when it starts with `/`; otherwise the request's default path is used. */
  function RootedKeyPath(u: URL, c: Cookie): (p: string)
    ensures p == "" || p[0] == '/'
    ensures c.path != "" && c.path[0] == '/' ==> p == c.path
    ensures (c.path == "" || c.path[0] != '/') ==> p == KeyPath(u, c.(path := ""))
  {
    if c.path != "" && c.path[0] == '/' then c.path else KeyPath(u, c.(path := ""))
  }

  /** The as-written key with the key path of RFC 6265: the code's domain choice,
      and a Path attribute only when it is rooted. */
  function ToKeyRooted(u: URL, c: Cookie): Key
    requires DomainDefined(u, c)
  {
    SchemePrefix(c) + StripLeadingDot(DomainAsWritten(u, c)) + RootedKeyPath(u, c)
  }

  /** With the rooted key path, every key re-parses into the scope it names: the
      scheme the Secure flag selects, the chosen domain with one leading dot
      dropped, and a rooted (or empty) path, whatever the Path attribute holds. */
  lemma RootedKeyRoundTrip(u: URL, c: Cookie)
    requires DomainDefined(u, c) && '/' !in DomainAsWritten(u, c)
    requires ValidText(DomainAsWritten(u, c)) && ValidText(RootedKeyPath(u, c))
    ensures var r := ParseUrl(ToKeyRooted(u, c));
            r.Some? && r.value == URL(if c.secure then "https" else "http", StripLeadingDot(DomainAsWritten(u, c)), RootedKeyPath(u, c))
  {
    var url := URL(if c.secure then "https" else "http", StripLeadingDot(DomainAsWritten(u, c)), RootedKeyPath(u, c));
    assert SchemePrefix(c) == url.scheme + "://";
    StrippedHostValid(DomainAsWritten(u, c));
    SchemeNameValid(c.secure);
    ParseUrlString(url);
  }

  /** Dropping a leading dot keeps a domain free of `/` and acceptable to the parser. */
  lemma StrippedHostValid(domain: string)
    requires |domain| > 0 && '/' !in domain && ValidText(domain)
    ensures '/' !in StripLeadingDot(domain) && ValidText(StripLeadingDot(domain))
  {
    if domain[0] == '.' {
      ValidTextSuffix(domain, 1);
      assert forall i :: 0 <= i < |domain| - 1 ==> domain[1..][i] == domain[i + 1];
    }
  }

  lemma SchemeNameValid(secure: bool)
    ensures ValidText(if secure then "https" else "http")
  {
    var scheme := if secure then "https" else "http";
    forall i | 0 <= i < |scheme| ensures AcceptedAt(scheme, i) {
      assert scheme[i] in "htps";
    }
  }

  /** A Domain cookie written from a subdomain: the derived key keeps the subdomain,
      so the export narrows the cookie to that host, while the corrected key
      names the parent domain the cookie was set for. */
  lemma AsWrittenIgnoresDomainAttribute()
    ensures var u := URL("https", "sub.example.com", "/");
            var c := Cookie("abcd", "1234", "", "example.com", false, false);
            ToKeyAsWritten(u, c) == "http://" + "sub.example.com"
            && ToKey(u, c) == "http://" + "example.com"
  {
    var u := URL("https", "sub.example.com", "/");
    var c := Cookie("abcd", "1234", "", "example.com", false, false);
    assert KeyPath(u, c) == "";
    assert ToKeyAsWritten(u, c) == "http://" + "sub.example.com";
    assert ChosenDomain(u, c) == c.domain;
    assert StripLeadingDot(c.domain) == c.domain;
    assert ToKey(u, c) == Assemble(u, c, c.domain);
  }
}

=== FILE: seqs.dfy ===
/** Generic facts and helpers over sequences: searching, order-preserving
    filtering, de-duplication and the "first shortest" selection. */
module Seqs {

  /** No element occurs twice. */
  predicate NoDuplicates<T(==)>(s: seq<T>) {
    forall i, j :: 0 <= i < j < |s| ==> s[i] != s[j]
  }

  /** `r` is obtained from `s` by deleting elements, keeping the rest in order. */
  predicate IsSubsequence<T(==)>(r: seq<T>, s: seq<T>)
    decreases |s|
  {
    if |r| == 0 then true
    else if |s| == 0 then false
    else if r[0] == s[0] then IsSubsequence(r[1..], s[1..])
    else IsSubsequence(r, s[1..])
  }

  /** Prepending an element to the longer sequence keeps a subsequence one. */
  lemma {:induction false} SubsequenceExtend<T>(r: seq<T>, s: seq<T>)
    requires |s| > 0 && IsSubsequence(r, s[1..])
    ensures IsSubsequence(r, s)
    decreases |s|, 0
  {
    if |r| > 0 && r[0] == s[0] {
      SubsequenceDropFirst(r, s[1..]);
    }
  }

  /** Dropping the head of a subsequence keeps it one. */
  lemma {:induction false} SubsequenceDropFirst<T>(r: seq<T>, s: seq<T>)
    requires |r| > 0 && IsSubsequence(r, s)
    ensures IsSubsequence(r[1..], s)
    decreases |s|, 1
  {
    if r[0] == s[0] {
      SubsequenceExtend(r[1..], s);
    } else {
      SubsequenceDropFirst(r, s[1..]);
      SubsequenceExtend(r[1..], s);
    }
  }

  lemma {:induction false} SubsequenceTransitive<T>(a: seq<T>, b: seq<T>, c: seq<T>)
    requires IsSubsequence(a, b) && IsSubsequence(b, c)
    ensures IsSubsequence(a, c)
    decreases |c|
  {
    if |a| > 0 {
      if b[0] == c[0] {
        if a[0] == b[0] {
          SubsequenceTransitive(a[1..], b[1..], c[1..]);
        } else {
          SubsequenceTransitive(a, b[1..], c[1..]);
        }
      } else {
        SubsequenceTransitive(a, b, c[1..]);
        SubsequenceExtend(a, c);
      }
    }
  }

  /** Position of the first `c` in `s`, or -1 (Go's strings.IndexByte). */
  function IndexOf<T(==)>(s: seq<T>, c: T): (r: int)
    ensures -1 <= r < |s|
    ensures r == -1 <==> c !in s
    ensures r >= 0 ==> s[r] == c && c !in s[..r]
  {
    if |s| == 0 then -1
    else if s[0] == c then 0
    else
      var i := IndexOf(s[1..], c);
      assert s[1..][..if i < 0 then 0 else i] == s[1..if i < 0 then 1 else i + 1];
      if i < 0 then -1 else i + 1
  }

  /** Position of the last `c` in `s`, or -1 (Go's strings.LastIndex). */
  function LastIndexOf<T(==)>(s: seq<T>, c: T): (r: int)
    ensures -1 <= r < |s|
    ensures r == -1 <==> c !in s
    ensures r >= 0 ==> s[r] == c && c !in s[r + 1..]
  {
    if |s| == 0 then -1
    else if s[|s| - 1] == c then |s| - 1
    else
      var init := s[..|s| - 1];
      assert s == init + [s[|s| - 1]];
      var i := LastIndexOf(init, c);
      assert i >= 0 ==> s[i + 1..] == init[i + 1..] + [s[|s| - 1]];
      i
  }

  /** A `c` at `n` with none before it is what IndexOf finds. */
  lemma IndexOfAt<T>(s: seq<T>, c: T, n: nat)
    requires n < |s| && s[n] == c && c !in s[..n]
    ensures IndexOf(s, c) == n
  {
    assert s[n] in s;
    var r := IndexOf(s, c);
    assert forall k :: 0 <= k < n ==> s[..n][k] == s[k];
    assert forall k :: 0 <= k < r ==> s[..r][k] == s[k];
  }

  /** A `c` at `n` with none after it is what LastIndexOf finds. */
  lemma LastIndexOfAt<T>(s: seq<T>, c: T, n: nat)
    requires n < |s| && s[n] == c && c !in s[n + 1..]
    ensures LastIndexOf(s, c) == n
  {
    assert s[n] in s;
    var r := LastIndexOf(s, c);
    assert forall k :: n < k < |s| ==> s[n + 1..][k - n - 1] == s[k];
    assert forall k :: r < k < |s| ==> s[r + 1..][k - r - 1] == s[k];
  }

  /** The elements of `s` that satisfy `p`, in their original order (what repeated
      `append` into a Go slice builds). */
  function Filter<T(==,!new)>(s: seq<T>, p: T -> bool): (r: seq<T>)
    ensures |r| <= |s|
    ensures forall x :: x in r <==> x in s && p(x)
    ensures IsSubsequence(r, s)
  {
    if |s| == 0 then []
    else if p(s[0]) then
      var rest := Filter(s[1..], p);
      assert ([s[0]] + rest)[1..] == rest;
      [s[0]] + rest
    else
      Filter(s[1..], p)
  }

  /** Filtering keeps every matching element as often as it occurs, and no other. */
  lemma {:induction false} FilterCounts<T(!new)>(s: seq<T>, p: T -> bool)
    ensures forall x :: multiset(Filter(s, p))[x] == if p(x) then multiset(s)[x] else 0
  {
    if |s| > 0 {
      FilterCounts(s[1..], p);
      assert s == [s[0]] + s[1..];
      if p(s[0]) {
        assert Filter(s, p) == [s[0]] + Filter(s[1..], p);
      }
    }
  }

  /** Filtering by `p` and then by `q` is filtering once by their conjunction `pq`. */
  lemma {:induction false} FilterFilter<T(!new)>(s: seq<T>, p: T -> bool, q: T -> bool, pq: T -> bool)
    requires forall x :: pq(x) == (p(x) && q(x))
    ensures Filter(Filter(s, p), q) == Filter(s, pq)
  {
    if |s| > 0 {
      FilterFilter(s[1..], p, q, pq);
      if p(s[0]) {
        assert Filter(s, p) == [s[0]] + Filter(s[1..], p);
        assert Filter(s, p)[1..] == Filter(s[1..], p);
      }
    }
  }

  /** `s[j]` satisfies `p` and has the least measure among the elements that do,
      and every earlier element that does is strictly larger. */
  predicate IsFirstMinimalWhere<T>(s: seq<T>, p: T -> bool, m: T -> nat, j: int) {
    0 <= j < |s| && p(s[j])
    && (forall k :: 0 <= k < |s| && p(s[k]) ==> m(s[j]) <= m(s[k]))
    && (forall k :: 0 <= k < j && p(s[k]) ==> m(s[j]) < m(s[k]))
  }

  /** The first minimal element of a filtered sequence is the earliest minimal
      matching element of the original sequence. */
  lemma {:induction false} FilterFirstMinimal<T(!new)>(s: seq<T>, p: T -> bool, m: T -> nat, i: int)
    returns (j: nat)
    requires IsFirstMinimal(Filter(s, p), m, i)
    ensures IsFirstMinimalWhere(s, p, m, j) && s[j] == Filter(s, p)[i]
  {
    if p(s[0]) && i == 0 {
      HeadFirstMinimal(s, p, m);
      j := 0;
    } else if p(s[0]) {
      MatchingHeadTail(s, p, m, i);
      var j' := FilterFirstMinimal(s[1..], p, m, i - 1);
      LiftPastMatching(s, p, m, i, j');
      j := j' + 1;
    } else {
      assert Filter(s, p) == Filter(s[1..], p);
      var j' := FilterFirstMinimal(s[1..], p, m, i);
      LiftPastSkipped(s, p, m, i, j');
      j := j' + 1;
    }
  }

  /** A matching first element that is minimal in the filter is minimal among all
      matching elements. */
  lemma HeadFirstMinimal<T(!new)>(s: seq<T>, p: T -> bool, m: T -> nat)
    requires |s| > 0 && p(s[0]) && IsFirstMinimal(Filter(s, p), m, 0)
    ensures IsFirstMinimalWhere(s, p, m, 0) && s[0] == Filter(s, p)[0]
  {
    var f := Filter(s, p);
    assert f == [s[0]] + Filter(s[1..], p);
    forall k | 0 <= k < |s| && p(s[k]) ensures m(s[0]) <= m(s[k]) {
      assert s[k] in f;
    }
  }

  /** When the filter keeps the first element and its minimum lies later, that
      minimum is the first minimal element of the filtered tail. */
  lemma MatchingHeadTail<T(!new)>(s: seq<T>, p: T -> bool, m: T -> nat, i: int)
    requires |s| > 0 && p(s[0]) && IsFirstMinimal(Filter(s, p), m, i) && i > 0
    ensures IsFirstMinimal(Filter(s[1..], p), m, i - 1)
    ensures Filter(s[1..], p)[i - 1] == Filter(s, p)[i] && m(Filter(s, p)[i]) < m(s[0])
  {
    var f := Filter(s, p);
    assert f == [s[0]] + Filter(s[1..], p);
    assert f[1..] == Filter(s[1..], p);
    FirstMinimalTail(f, m, i);
  }

  /** Dropping a first element that is not the minimum keeps the minimum first. */
  lemma FirstMinimalTail<T>(s: seq<T>, m: T -> nat, i: int)
    requires IsFirstMinimal(s, m, i) && i > 0
    ensures IsFirstMinimal(s[1..], m, i - 1)
  {
    assert forall k :: 0 <= k < |s| - 1 ==> s[1..][k] == s[k + 1];
  }

  lemma LiftPastMatching<T(!new)>(s: seq<T>, p: T -> bool, m: T -> nat, i: int, j: int)
    requires |s| > 0 && p(s[0]) && 0 < i < |Filter(s, p)|
    requires Filter(s[1..], p)[i - 1] == Filter(s, p)[i] && m(Filter(s, p)[i]) < m(s[0])
    requires IsFirstMinimalWhere(s[1..], p, m, j) && s[1..][j] == Filter(s[1..], p)[i - 1]
    ensures IsFirstMinimalWhere(s, p, m, j + 1) && s[j + 1] == Filter(s, p)[i]
  {
    WhereTail(s, p, m, j);
  }

  lemma LiftPastSkipped<T(!new)>(s: seq<T>, p: T -> bool, m: T -> nat, i: int, j: int)
    requires |s| > 0 && !p(s[0]) && 0 <= i < |Filter(s[1..], p)|
    requires IsFirstMinimalWhere(s[1..], p, m, j) && s[1..][j] == Filter(s[1..], p)[i]
    ensures IsFirstMinimalWhere(s, p, m, j + 1) && s[j + 1] == Filter(s, p)[i]
  {
    WhereTail(s, p, m, j);
  }

  /** A minimum found after the first element, strictly below a matching first
      element, is the minimum of the whole sequence. */
  lemma WhereTail<T>(s: seq<T>, p: T -> bool, m: T -> nat, j: int)
    requires |s| > 0 && IsFirstMinimalWhere(s[1..], p, m, j)
    requires p(s[0]) ==> m(s[1..][j]) < m(s[0])
    ensures IsFirstMinimalWhere(s, p, m, j + 1)
  {
    assert forall k :: 1 <= k < |s| ==> s[k] == s[1..][k - 1];
  }

  /** The elements of `s`, each once, in order of first occurrence. */
  function Distinct<T(==,!new)>(s: seq<T>): (r: seq<T>)
    ensures forall x :: x in r <==> x in s
    ensures NoDuplicates(r)
  {
    if |s| == 0 then []
    else
      var rest := Distinct(s[..|s| - 1]);
      assert s == s[..|s| - 1] + [s[|s| - 1]];
      if s[|s| - 1] in rest then rest else rest + [s[|s| - 1]]
  }

  /** Two duplicate-free sequences with no element in common concatenate to a
      duplicate-free sequence. */
  lemma NoDuplicatesConcat<T>(a: seq<T>, b: seq<T>)
    requires NoDuplicates(a) && NoDuplicates(b)
    requires forall i, j :: 0 <= i < |a| && 0 <= j < |b| ==> a[i] != b[j]
    ensures NoDuplicates(a + b)
  {
    forall i, j | 0 <= i < j < |a + b| ensures (a + b)[i] != (a + b)[j] {
      if j < |a| {
        assert (a + b)[i] == a[i] && (a + b)[j] == a[j];
      } else if i >= |a| {
        assert (a + b)[i] == b[i - |a|] && (a + b)[j] == b[j - |a|];
      } else {
        assert (a + b)[i] == a[i] && (a + b)[j] == b[j - |a|];
      }
    }
  }

  /** A duplicate-free sequence has as many elements as the set of its elements. */
  lemma {:induction false} NoDuplicatesCardinality<T>(s: seq<T>)
    requires NoDuplicates(s)
    ensures |set x | x in s| == |s|
  {
    if |s| > 0 {
      var init := s[..|s| - 1];
      NoDuplicatesCardinality(init);
      assert s == init + [s[|s| - 1]];
      assert (set x | x in s) == (set x | x in init) + {s[|s| - 1]};
      assert s[|s| - 1] !in init by {
        forall i | 0 <= i < |init| ensures init[i] != s[|s| - 1] {
          assert init[i] == s[i];
        }
      }
    }
  }

  /** `s[i]` has the least measure in `s`, and every earlier element is strictly larger:
      the element a left-to-right scan with a strict comparison keeps. */
  predicate IsFirstMinimal<T>(s: seq<T>, m: T -> nat, i: int) {
    0 <= i < |s|
    && (forall j :: 0 <= j < |s| ==> m(s[i]) <= m(s[j]))
    && (forall j :: 0 <= j < i ==> m(s[i]) < m(s[j]))
  }

  /** Index of the first element of least measure in a non-empty sequence. */
  function FirstMinimal<T>(s: seq<T>, m: T -> nat): (i: nat)
    requires |s| > 0
    ensures IsFirstMinimal(s, m, i)
  {
    if |s| == 1 then 0
    else
      var j := 1 + FirstMinimal(s[1..], m);
      if m(s[0]) <= m(s[j]) then 0 else j
  }
}

=== FILE: utils.dfy ===
/** The two string helpers of the package, and the length Go's `len` gives a string. */
module Utils {

  /** The number of bytes a character takes in UTF-8. */
  function Utf8Width(c: char): (w: nat)
    ensures 1 <= w <= 4
    ensures w == 1 <==> c as int < 0x80
  {
    if c as int < 0x80 then 1
    else if c as int < 0x800 then 2
    else if c as int < 0x1_0000 then 3
    else 4
  }

  /** The number of bytes of `s` in UTF-8: what Go's `len` counts on a string. */
  function Utf8Len(s: string): (n: nat)
    ensures |s| <= n <= 4 * |s|
    ensures n == |s| <==> forall i :: 0 <= i < |s| ==> s[i] as int < 0x80
  {
    if |s| == 0 then 0
    else
      var n := Utf8Width(s[0]) + Utf8Len(s[1..]);
      assert forall i :: 1 <= i < |s| ==> s[i] == s[1..][i - 1];
      n
  }

  /** The first non-empty string of `choices`, or `defaultValue` when every choice
      is empty (or there are none). Note the argument order: the default comes FIRST. */
  function StringCoalesceWithDefault(defaultValue: string, choices: seq<string>): (r: string)
    ensures r == defaultValue || r in choices
    ensures (forall i :: 0 <= i < |choices| ==> choices[i] == "") ==> r == defaultValue
    ensures forall i :: 0 <= i < |choices| && choices[i] != "" && (forall j :: 0 <= j < i ==> choices[j] == "")
              ==> r == choices[i]
  {
    if |choices| == 0 then defaultValue
    else if |choices[0]| > 0 then choices[0]
    else
      var r := StringCoalesceWithDefault(defaultValue, choices[1..]);
      assert forall i :: 1 <= i < |choices| ==> choices[1..][i - 1] == choices[i];
      r
  }

  /** The first string of least byte length, or "" for no choices; the scan replaces
      its candidate only on a strictly shorter string, so earlier strings win ties. */
  method StringMin(choices: seq<string>) returns (best: string)
    ensures |choices| == 0 ==> best == ""
    ensures |choices| > 0 ==> best in choices
    ensures forall j :: 0 <= j < |choices| ==> Utf8Len(best) <= Utf8Len(choices[j])
    ensures |choices| > 0 ==>
              exists i :: 0 <= i < |choices| && best == choices[i]
                && forall j :: 0 <= j < i ==> Utf8Len(best) < Utf8Len(choices[j])
  {
    if |choices| == 0 {
      return "";
    }
    best := choices[0];
    var at := 0;
    for k := 0 to |choices|
      invariant at < |choices| && best == choices[at]
      invariant forall j :: 0 <= j < k ==> Utf8Len(best) <= Utf8Len(choices[j])
      invariant forall j :: 0 <= j < at ==> Utf8Len(best) < Utf8Len(choices[j])
    {
      if Utf8Len(choices[k]) < Utf8Len(best) {
        best := choices[k];
        at := k;
      }
    }
  }
}

=== FILE: wrappers.dfy ===
/** The optional-value datatype used for lookups that can fail: the public-suffix
    query and re-parsing a stored scope key back into a URL. */
module Wrappers {

  datatype Option<+T> = None | Some(value: T) {

    /** Returns the encapsulated value, or `default` when there is none. */
    function GetOr(default: T): T {
      match this
      case Some(v) => v
      case None => default
    }
  }

  /** Applies `f` to every element in order; None as soon as one application fails. */
  function MapAll<A, B>(xs: seq<A>, f: A -> Option<B>): (r: Option<seq<B>>)
    ensures r.Some? <==> forall i :: 0 <= i < |xs| ==> f(xs[i]).Some?
    ensures r.Some? ==> |r.value| == |xs| && forall i :: 0 <= i < |xs| ==> f(xs[i]) == Some(r.value[i])
  {
    if |xs| == 0 then Some([])
    else
      match f(xs[0])
      case None => None
      case Some(y) =>
        match MapAll(xs[1..], f)
        case None =>
          var j :| 0 <= j < |xs[1..]| && f(xs[1..][j]).None?;
          assert xs[1..][j] == xs[j + 1];
          None
        case Some(ys) =>
          assert forall i :: 1 <= i < |xs| ==> xs[1..][i - 1] == xs[i];
          Some([y] + ys)
  }
}
